=== FILE: README.md ===
# Project setup plans of the scaffolding form

This project models the core of the project scaffolder's main form (`MainForm.cs`):

- how the create button turns the typed name into a sanitised project name;
- how a template choice and a list of enhancements become an ordered setup: messages, shell commands, folder creations and file writes;
- which stylesheet the Tailwind CSS enhancement rewrites;
- the policy that decides which command outcomes end the setup;
- what the setup leaves on disk;
- how the location label shortens a path.

Building the plan is separated from carrying it out. `Plan.Setup` is a pure function from the selection to a sequence of steps. `Runner.Execute` carries the steps out against a sequence of outcomes, one per step, that the world chooses. `Files.Apply` gives the effect of the file steps that complete on a modelled file system, and `Runner.DiskAfter` the disk after a run that may stop early.

Modules:

- `Common`: `Option`, `Result`, substring containment.
- `Paths`: structural paths, `Split`/`Join`, and `ShortenPath`.
- `Catalog`: the templates and enhancements, and the switch on their names.
- `Naming`: the create button's checks, trimming and sanitising.
- `Plan`: steps, commands, enhancement blocks and the whole setup.
- `PlanFacts`: properties relating plans to one another.
- `Runner`: outcomes, the output pane, and where a setup stops.
- `Files`: the file-system effect of a plan, last-write-wins, and idempotence.

Two behaviours of the code shape the model:

- **Unknown names.** The switches on the template and enhancement names have no default case. An unknown template therefore gets no scaffold command and the default start command, and its enhancements still run. An unknown enhancement contributes only its "Adding ..." line. The `UnknownTemplate` and `UnknownEnhancement` variants model this.
- **Errors.** A timeout or an exception propagates to the create button. There it replaces the completion lines with an error line, and files already written stay in place.

## Model

| member | source | states |
|---|---|---|
| `Naming.Trim` | MainForm.cs:513 | The trimmed name occurs inside the typed text with only whitespace before and after it. It neither starts nor ends with whitespace, and it is empty exactly when the typed text is blank. |
| `Naming.TrimClean` | MainForm.cs:513 | A text that neither starts nor ends with whitespace is left as it is by trimming. |
| `Naming.TrimIdempotent` | MainForm.cs:513 | Trimming twice gives the same text as trimming once. |
| `Naming.Sanitize` | MainForm.cs:527 | The project name keeps the length of the trimmed name. It has no space and no upper-case ASCII letter. Every space becomes `-`, every upper-case ASCII letter becomes its lower-case letter, and every other character is kept in place. |
| `Naming.SanitizeFixedPoints` | MainForm.cs:527 | Sanitising leaves a name unchanged exactly when the name has no space and no upper-case letter. |
| `Naming.SanitizeIdempotent` | MainForm.cs:527 | Sanitising twice gives the same name as sanitising once. |
| `Naming.ValidateInput` | MainForm.cs:513-545 | The create button refuses exactly when the name is blank, the location is blank, or no template is selected. The blank-name error takes precedence over the location error, and with a name and a location present the only refusal is the missing template. An accepted request carries the non-empty sanitised name, the chosen location and template, and the checked enhancements. |
| `Catalog.ParseTemplate` | MainForm.cs:708-757 | The switch on a template name yields a template whose displayed name is that name. It is unknown exactly when the name is not one of the eleven listed. |
| `Catalog.ParseEnhancement` | MainForm.cs:832-957 | The switch on an enhancement name yields an enhancement bearing that name. It is unknown exactly when the name is not one of the six listed. |
| `Catalog.ParseTemplateName` | MainForm.cs:31-44 | Naming a template and switching on the name gives the template back. |
| `Catalog.ParseEnhancementName` | MainForm.cs:46-54 | Naming an enhancement and switching on the name gives the enhancement back. |
| `Catalog.ListedTemplatesAreKnown` | MainForm.cs:31-44 | Every listed template name reaches a case of the switch, and the listed names are distinct. |
| `Catalog.ListedEnhancementsAreKnown` | MainForm.cs:46-54 | Every listed enhancement name reaches a case of the switch, and the listed names are distinct. |
| `Paths.Split` | MainForm.cs:1090 | Splitting yields at least one piece, and no piece contains the separator. |
| `Paths.JoinEnds` | MainForm.cs:1094-1096 | A join starts with the first piece and ends with the last. Its length is the pieces' total length plus one separator between each two neighbours. |
| `Paths.JoinSplit` | MainForm.cs:1090-1096 | Joining the pieces of a split with the separator gives back the original path. |
| `Paths.SplitJoin` | MainForm.cs:1090-1096 | Splitting a join of separator-free pieces gives back the pieces. |
| `Paths.Sub32` | MainForm.cs:1096 | C# `int` subtraction: the result is in the `int` range, equals the true difference whenever that is in range, and otherwise differs from it by 2^32. |
| `Paths.SkipLeaves` | MainForm.cs:1096 | `Skip(count)` on `n` items leaves all of them for a non-positive count, none for a count of at least `n`, and `n - count` in between. |
| `Paths.ShortenPath` | MainForm.cs:1088-1097 | A path with at most `maxFolders` pieces is shown unchanged. A longer one starts with `...` and a separator. A longer one with a non-positive `maxFolders` is exactly `...` and a separator, unless the `int` subtraction wraps around, in which case the whole path follows `...` and the separator. |
| `Paths.DefaultShortening` | MainForm.cs:500-507 | The location label, shortened with the default of four folders, shows a path of at most four pieces whole, and a longer one as `...` followed by its last four pieces. |
| `Paths.ShortenPathKeepsLastFolders` | MainForm.cs:1088-1097 | A shortened path splits into `...` followed by exactly the last `maxFolders` folders of the original, in their original order. |
| `Plan.RunAll` | MainForm.cs:759-769 | Each command becomes a command step run from the output directory, in the given order. The commands of the result are the given commands. |
| `Plan.ScaffoldCommand` | MainForm.cs:708-751 | A template has a scaffold command exactly when it is neither the standalone page nor unknown. `PlanFacts.ScaffoldNamesProject` adds that every scaffold names the project. |
| `Plan.PostInstallCommands` | MainForm.cs:708-757 | Every post-install command text of a template begins with `cd <name> && `. |
| `Plan.StartCommand` | MainForm.cs:708-757 | `npm start` exactly for React and Express, `ng serve` exactly for Angular, the browser-and-server command exactly for the standalone page, and `npm run dev` (set at line 573) for every other template, including an unknown one. |
| `Plan.StandaloneSteps` | MainForm.cs:778-820 | The standalone page's steps run no command. |
| `Plan.StylesheetTarget` | MainForm.cs:857-875 | There is a target exactly when `src` exists. The target is `src/index.css` whenever that file exists, `src/style.css` only when that file exists and `src/index.css` does not, and `src/index.css` when neither exists. |
| `Plan.InstallSteps` | MainForm.cs:835-940 | An enhancement has no install steps exactly when its name is unknown, and at most two otherwise. |
| `Plan.EnhancementCommands` | MainForm.cs:832-957 | Every install command of an enhancement starts with `cd <name> && `. An enhancement has no commands exactly when its name is unknown. |
| `Plan.EnhancementFiles` | MainForm.cs:832-957 | An enhancement's file steps run no command and create no folder. Every path they write is `FilePath(outputDirectory, [name, …])` with at least one segment after the name. |
| `Plan.EnhancementBlock` | MainForm.cs:828-830 | An enhancement's block starts with its "Adding" line. |
| `Plan.EnhancementBlockInProject` | MainForm.cs:832-957 | Every command in an enhancement's block runs from the output directory, and its text begins with `cd <name> && `. Every write path is `FilePath(outputDirectory, [name, …])` with at least one segment after the name. |
| `Plan.EnhancementBlockOrder` | MainForm.cs:832-957 | Within a block, no install comes after a file write. |
| `Plan.EnhancementBlockCommands` | MainForm.cs:832-957 | The commands of a block are exactly the enhancement's install commands, in order. |
| `Plan.UnknownEnhancementOnlyAnnounced` | MainForm.cs:828-832 | An enhancement name the switch does not know contributes only its announcement. |
| `Plan.EnhancementBlocks` | MainForm.cs:828-958 | Every enhancement contributes a block of at least one step, so there are at least as many steps as enhancements. |
| `Plan.EnhancementBlocksInProject` | MainForm.cs:828-958 | Across all the blocks, every command runs from the output directory with a text that begins with `cd <name> && `, and every write path is `FilePath(outputDirectory, [name, …])` with at least one segment after the name. |
| `Plan.EnhancementPart` | MainForm.cs:770-775 | No enhancements give no steps at all. Otherwise the phase opens with the "Applying enhancements" header and has more steps than there are enhancements. |
| `Plan.EnhancementPartInProject` | MainForm.cs:822-959 | The same holds for the whole enhancement phase, including its "Applying enhancements" header. |
| `Plan.AllEnhancementCommands` | MainForm.cs:828-958 | Every enhancement command starts with `cd <name> && `. |
| `Plan.Setup` | MainForm.cs:700-776 | A setup's first step announces the template and the project name. Its start command is the template's. |
| `Plan.SetupByName` | MainForm.cs:700-708 | The announcement carries the template name exactly as the form passed it, including a name the switch does not know. |
| `PlanFacts.BlocksAppend` | MainForm.cs:828-958 | The blocks of `e1 + e2` are the blocks of `e1` followed by the blocks of `e2`. |
| `PlanFacts.BlocksOfSubrun` | MainForm.cs:828-958 | A contiguous run of the selection contributes its blocks as one contiguous run, in order. |
| `PlanFacts.BlocksCommands` | MainForm.cs:828-958 | The commands of the blocks are the enhancements' install commands, in the caller's order. |
| `PlanFacts.EnhancementPartCommands` | MainForm.cs:771-775 | The commands of the enhancement part are the enhancements' install commands. |
| `PlanFacts.StandaloneCommands` | MainForm.cs:752-756 | The standalone page runs no command. |
| `PlanFacts.TemplateSetupCommands` | MainForm.cs:759-775 | For any other template, the commands are the template's commands followed by every enhancement's commands, in order. |
| `PlanFacts.EnhancementsFollowTemplate` | MainForm.cs:771-775 | The plan with enhancements is the plan without them followed by the enhancement part. An empty list adds nothing. |
| `PlanFacts.MoreEnhancementsAppendBlocks` | MainForm.cs:828-958 | Adding enhancements after a non-empty selection appends their blocks and changes nothing before them. |
| `PlanFacts.StandaloneIgnoresEnhancements` | MainForm.cs:752-756 | The standalone plan is the same for every enhancement list and every state of the disk. |
| `PlanFacts.StandaloneWrites` | MainForm.cs:778-816 | The standalone page runs no command. It writes exactly `index.html`, then `js/main.js`, at `FilePath(outputDirectory, [name, …])`. |
| `PlanFacts.CommandsRunFromOutputDirectory` | MainForm.cs:759-769 | Every command of every setup runs from the chosen output directory. |
| `PlanFacts.ScaffoldComesFirst` | MainForm.cs:708-769 | For every listed template but the standalone page, the scaffold command is non-empty and names the project. It is the first command, and the post-install commands follow it in listed order. |
| `PlanFacts.ScaffoldNamesProject` | MainForm.cs:708-751 | The scaffold command of every listed template but the standalone page is non-empty and contains the project name. |
| `PlanFacts.UnknownTemplateStillEnhances` | MainForm.cs:708-775 | A template whose name is not in the list runs only the enhancements' commands and keeps the default start command. |
| `PlanFacts.ThreeJsInstallOrder` | MainForm.cs:737-741 | Three.js scaffolds with Vite, then runs `npm install`, then `npm install three`. |
| `PlanFacts.ViteWithTypeScript` | MainForm.cs:718-721 | Vite (Vanilla) with TypeScript runs exactly the scaffold, the install and the TypeScript install, and writes `tsconfig.json` into the project. |
| `PlanFacts.TailwindDirectivesTarget` | MainForm.cs:857-875 | The Tailwind CSS block writes the directives exactly when `src` exists, and then to the chosen stylesheet. |
| `Runner.Fails` | MainForm.cs:1006-1045 | No completion ends the setup, whatever its exit code, and no message does. A thrown exception ends it at any step that does something. A timeout ends it exactly at a command. |
| `Runner.FaultReason` | MainForm.cs:1015 | A timeout reaches the create button as "Command execution timed out.". Any other exception reaches it with its own message. |
| `Runner.CommandEvents` | MainForm.cs:963-1045 | A command shows its "Executing" line first. It then shows "completed successfully" exactly for exit code 0, and the exit-code warning exactly for a nonzero code. It ends with an error line exactly when it timed out or threw, and a timeout is announced first. It shows three lines after a timeout and two otherwise. |
| `Runner.Execute` | MainForm.cs:700-776 | The steps carried out are a prefix of the plan, and a failed run carried out at least one step. |
| `Runner.ExecuteStopsAtFirstFailure` | MainForm.cs:1006-1045 | A run is clean exactly when no step fails, and then every step is carried out. Otherwise it stops at the first failing step: the failing step is the last one carried out, none before it failed, and the error is that step's. |
| `Runner.ExecuteAppend` | MainForm.cs:759-775 | Running a concatenation is running the first part and, only when that part ran clean, the second part after it. |
| `Runner.ExitCodesNeverAbort` | MainForm.cs:1018-1025 | When every step's outcome is a completion, whatever the exit code, every step is carried out and there is no error. |
| `Runner.ShownCommandsAreExecuted` | MainForm.cs:963 | The pane announces exactly the commands of the steps carried out, in order. |
| `Runner.Session` | MainForm.cs:566-590 | The pane starts with the "Starting project setup" line. |
| `Runner.FirstFailureFault` | MainForm.cs:570-590 | When step k is the first to fail, the execution stops with the reason of step k's outcome. |
| `Runner.SessionEnding` | MainForm.cs:570-590 | The session ends with the completion lines exactly when no step fails. Otherwise it ends with the error of the first failing step. |
| `Runner.ScaffoldTimeoutStopsSetup` | MainForm.cs:1008-1016 | A scaffold that times out ends the setup right after it, before any enhancement. The pane shows the announcement, the "Executing" line, the timeout notice and the error. |
| `Runner.DiskAfter` | MainForm.cs:570-590 | After a run in which no step fails, the disk holds the effect of every step of the plan. |
| `Runner.DiskAfterFailure` | MainForm.cs:784-954 | When step k is the first to fail, the disk holds the effect of exactly the steps before k: a folder or file step that throws, such as a write into a missing project folder, leaves nothing. When step k is a command, this is also the effect of every step carried out. |
| `Files.ApplyStep` | MainForm.cs:784-815 | Creating a folder adds it and changes nothing else. A write replaces the whole file and leaves every other file alone. Messages and commands leave the modelled disk unchanged. |
| `Files.Apply` | MainForm.cs:784-954 | Carrying out steps never removes a folder or a file. |
| `Files.ApplyAppend` | MainForm.cs:759-775 | Carrying out a concatenation of steps is carrying out the first part, then the second on the result. |
| `Files.LastWriteAt` | MainForm.cs:850-954 | The position found holds a write to the path, and no later step writes that path. When there is none, no step writes it. |
| `Files.LastWriteWins` | MainForm.cs:850-954 | After the steps, a path holds what the last write to it wrote. A path no step writes keeps its old content and its old existence. |
| `Files.ApplyFolders` | MainForm.cs:784-785 | The folders afterwards are the folders before plus every folder a step creates. |
| `Files.ApplyIdempotent` | MainForm.cs:784-954 | Carrying out the file steps of a plan a second time leaves the same folders and files. |
| `Files.DirectivesReplaceStylesheet` | MainForm.cs:857-875 | With a `src` folder, the chosen stylesheet ends up holding exactly the directives, and it is an existing stylesheet whenever one of the candidates exists. Without a `src` folder, only the configuration file is written. |
| `Files.TailwindFilesIdempotent` | MainForm.cs:850-873 | Writing the Tailwind CSS files twice leaves the same content as writing them once. |

## Left out

- The window, its layout, dialogs and button wiring (lines 74-327, 477-509, 547-568, 593-651). The confirmation dialog is treated as answered "Yes".
- Prerequisite detection for Node.js and npm (lines 329-475): it is process I/O on the host.
- Starting processes, streaming their standard output and error, the five-minute timer and killing the process tree (lines 967-1013). Only the outcome kind of each command is modelled: completion with an exit code, timeout, or exception. The command's own output lines are not modelled.
- Marshalling output to the UI thread, and the colours of output lines (lines 1049-1086). Output lines are modelled as `Runner.Event` values, not text.
- Opening Explorer and launching the development server in `cmd /k` (lines 653-699). These are external processes.
- The literal texts of the generated files (lines 790-815 and 839-955). They are the opaque `Plan.Content` values.
- The effect of the shell commands on disk. In particular, the scaffold's creation of `src` is not modelled. The Tailwind CSS existence checks are the `Plan.Probe` input, taken once for the whole plan.
- How `Path.Combine` renders a path as text. Project paths are structural (`Paths.FilePath`).
- The collection of checked enhancements from the list box (lines 537-544). `Naming.ValidateInput` receives them already collected, in list order.
- Naming.ToLowerChar: `ToLower` follows the current culture, which is not modelled. The model lowers `A`-`Z` as the invariant culture does and keeps every other character. Under a Turkish culture, for example, the code lowers `I` to a dotless `ı`, which the model does not.
- Naming.Sanitize: the no-upper-case guarantee is stated for the ASCII lowering above. The same-length guarantee matches the code under every culture, because `ToLower` maps one character to one character.
- Plan.SetupByName: states only the announcement. Its other properties follow from `Plan.Setup` through `Catalog.ParseTemplate`.
- Paths.ShortenPath: requires the path to be shorter than `int.MaxValue` characters and `maxFolders` to be in the `int` range. These are the bounds of the C# types involved, and they keep the piece count in the `int` range.
- PlanFacts.CommandsRunFromOutputDirectory: holds because `Plan.Setup` reads the output directory once. In the code, `outputDirectory` and `startCommand` are form fields read at every use. The create button stays enabled during a run, and the location dialog can reassign `outputDirectory` (line 502) while the setup is awaited. Later commands (lines 762, 768, 835-940) and the project path (line 824) would then use the new value. A second click can also start a concurrent setup that shares `startCommand`. That interleaving is not modelled.
- Plan.EnhancementBlocksInProject: holds for the same reason. The project path and the commands' working directory are fixed for the whole run, which the code does not guarantee when the location changes mid-run.
- Plan.EnhancementBlockInProject: the project name goes into the command text unquoted. It is not checked for a root, a separator or `..` either. `Naming.Sanitize` keeps characters such as `&` and `\`. For a name like `a&calc`, `cmd.exe /c` (lines 969-970) would run `cd a`, then the rest of the text from the output directory. For a rooted name or `..`, `Path.Combine` (lines 780, 824) would leave the output directory. The contract is stated on the command text and on the structural path, not on where the command runs or the file lands.
- Plan.EnhancementBlocksInProject: the same unquoted, unchecked name applies to every block.
- Plan.EnhancementPartInProject: the same unquoted, unchecked name applies to the whole enhancement phase.
- Files.ApplyStep: states the effect of a step that completes. A folder or file step that throws, such as `File.WriteAllText` into a project folder a failed scaffold never created, is only `Runner`'s `Threw` outcome. `Runner.DiskAfter` leaves such a step out. The model does not tie the outcome to the disk: a write into a missing folder is not forced to throw.
- Runner.Execute: a file step that "times out" is treated as succeeding. Only a thrown exception ends the setup at a file step, because file writes have no timeout.

=== FILE: catalog.dfy ===
/**
 * The templates and enhancements offered by the form, and the names under
 * which the form passes them to the setup.
 *
 * The setup dispatches on the displayed name with no default case, so a name
 * outside the lists is not rejected: it reaches the setup as an unknown
 * template (no scaffold, default start command) or an unknown enhancement
 * (only its announcement). The `Unknown...` variants carry such names.
 */
module Catalog {

  datatype Template =
    | React
    | ReactVite
    | ViteVanilla
    | Svelte
    | SvelteKit
    | Vue
    | NextJs
    | ThreeJs
    | Express
    | Angular
    | TailwindStandalone
    | UnknownTemplate(name: string)

  datatype Enhancement =
    | TailwindCss
    | EslintPrettier
    | Sass
    | Playwright
    | Vitest
    | TypeScript
    | UnknownEnhancement(name: string)

  /** The template list of the form, in display order. */
  const TemplateNames: seq<string> := [
    "React",
    "React + Vite",
    "Vite (Vanilla)",
    "Svelte",
    "SvelteKit",
    "Vue",
    "Next.js",
    "Three.js (using Vite)",
    "Express",
    "Angular",
    "Tailwind Standalone"
  ]

  /** The enhancement list of the form, in display order. */
  const EnhancementNames: seq<string> := [
    "Tailwind CSS",
    "ESLint + Prettier",
    "Sass",
    "Playwright (E2E testing)",
    "Vitest (Unit testing)",
    "TypeScript"
  ]

  /** The name the form displays for a template (and the setup switches on). */
  function TemplateName(t: Template): string {
    match t
    case React => "React"
    case ReactVite => "React + Vite"
    case ViteVanilla => "Vite (Vanilla)"
    case Svelte => "Svelte"
    case SvelteKit => "SvelteKit"
    case Vue => "Vue"
    case NextJs => "Next.js"
    case ThreeJs => "Three.js (using Vite)"
    case Express => "Express"
    case Angular => "Angular"
    case TailwindStandalone => "Tailwind Standalone"
    case UnknownTemplate(name) => name
  }

  /** The name the form displays for an enhancement. */
  function EnhancementName(e: Enhancement): string {
    match e
    case TailwindCss => "Tailwind CSS"
    case EslintPrettier => "ESLint + Prettier"
    case Sass => "Sass"
    case Playwright => "Playwright (E2E testing)"
    case Vitest => "Vitest (Unit testing)"
    case TypeScript => "TypeScript"
    case UnknownEnhancement(name) => name
  }

  /** A template value as the switch sees it: an unknown one never bears a listed name. */
  predicate IsCanonicalTemplate(t: Template) {
    t.UnknownTemplate? ==> t.name !in TemplateNames
  }

  /** An enhancement value as the switch sees it. */
  predicate IsCanonicalEnhancement(e: Enhancement) {
    e.UnknownEnhancement? ==> e.name !in EnhancementNames
  }

  /** The switch on the template name: the first matching case, or none. */
  function ParseTemplate(s: string): (t: Template)
    ensures TemplateName(t) == s
    ensures IsCanonicalTemplate(t)
    ensures t.UnknownTemplate? <==> s !in TemplateNames
  {
    if s == "React" then React
    else if s == "React + Vite" then ReactVite
    else if s == "Vite (Vanilla)" then ViteVanilla
    else if s == "Svelte" then Svelte
    else if s == "SvelteKit" then SvelteKit
    else if s == "Vue" then Vue
    else if s == "Next.js" then NextJs
    else if s == "Three.js (using Vite)" then ThreeJs
    else if s == "Express" then Express
    else if s == "Angular" then Angular
    else if s == "Tailwind Standalone" then TailwindStandalone
    else UnknownTemplate(s)
  }

  /** The switch on the enhancement name: the first matching case, or none. */
  function ParseEnhancement(s: string): (e: Enhancement)
    ensures EnhancementName(e) == s
    ensures IsCanonicalEnhancement(e)
    ensures e.UnknownEnhancement? <==> s !in EnhancementNames
  {
    if s == "Tailwind CSS" then TailwindCss
    else if s == "ESLint + Prettier" then EslintPrettier
    else if s == "Sass" then Sass
    else if s == "Playwright (E2E testing)" then Playwright
    else if s == "Vitest (Unit testing)" then Vitest
    else if s == "TypeScript" then TypeScript
    else UnknownEnhancement(s)
  }

  /** Naming a canonical template and switching on the name gives it back. */
  lemma {:induction false} ParseTemplateName(t: Template)
    requires IsCanonicalTemplate(t)
    ensures ParseTemplate(TemplateName(t)) == t
  {
  }

  /** Naming a canonical enhancement and switching on the name gives it back. */
  lemma {:induction false} ParseEnhancementName(e: Enhancement)
    requires IsCanonicalEnhancement(e)
    ensures ParseEnhancement(EnhancementName(e)) == e
  {
  }

  /** Every template the form lists is known to the switch, and the listed names are distinct. */
  lemma {:induction false} ListedTemplatesAreKnown()
    ensures forall i | 0 <= i < |TemplateNames| :: !ParseTemplate(TemplateNames[i]).UnknownTemplate?
    ensures forall i, j | 0 <= i < j < |TemplateNames| :: TemplateNames[i] != TemplateNames[j]
  {
  }

  /** Every enhancement the form lists is known to the switch, and the listed names are distinct. */
  lemma {:induction false} ListedEnhancementsAreKnown()
    ensures forall i | 0 <= i < |EnhancementNames| :: !ParseEnhancement(EnhancementNames[i]).UnknownEnhancement?
    ensures forall i, j | 0 <= i < j < |EnhancementNames| :: EnhancementNames[i] != EnhancementNames[j]
  {
  }
}

=== FILE: common.dfy ===
/** Shared vocabulary: optional values, results, and a substring predicate. */
module Common {

  /** A value that may be absent, such as an unselected list entry. */
  datatype Option<+T> = None | Some(value: T)

  /** Either a value or an error, in place of an exception or an early `return`. */
  datatype Result<+T, +E> = Success(value: T) | Failure(error: E)

  /** `sub` occurs in `s` starting at position `k`. */
  predicate OccursAt(s: string, sub: string, k: int) {
    0 <= k <= |s| - |sub| && s[k..k + |sub|] == sub
  }

  /** `sub` occurs somewhere in `s` as a contiguous run of characters. */
  predicate Contains(s: string, sub: string) {
    exists k | 0 <= k <= |s| :: OccursAt(s, sub, k)
  }

  /** An occurrence at a known position is an occurrence. */
  lemma {:induction false} OccursContains(s: string, sub: string, k: int)
    requires OccursAt(s, sub, k)
    ensures Contains(s, sub)
  {
  }

  /** The middle piece of a three-way concatenation occurs in the whole. */
  lemma {:induction false} ContainsMiddle(a: string, b: string, c: string)
    ensures Contains(a + b + c, b)
  {
    var s := a + b + c;
    assert s[|a|..|a| + |b|] == b;
    assert OccursAt(s, b, |a|);
  }

  /** The end piece of a concatenation occurs in the whole. */
  lemma {:induction false} ContainsEnd(a: string, b: string)
    ensures Contains(a + b, b)
  {
    ContainsMiddle(a, b, "");
    assert a + b + "" == a + b;
  }

  /** Concatenation regrouped. */
  lemma {:induction false} AppendAssoc<T>(a: seq<T>, b: seq<T>, c: seq<T>)
    ensures a + (b + c) == (a + b) + c
  {
  }
}

=== FILE: files.dfy ===
/**
 * What a plan leaves on disk. Folder creation is idempotent and every file
 * write replaces the whole file, so a path ends up holding what the last write
 * to it wrote, and carrying out the file steps of a plan again changes
 * nothing. The effect of the shell commands on disk is not modelled: a
 * command step leaves the modelled file system as it is. `ApplyStep` is the
 * effect of a step that completes; a folder or file step that throws has
 * none, and `Runner.DiskAfter` leaves it out.
 */
module Files {
  import opened Common
  import opened Paths
  import opened Catalog
  import opened Plan

  /** A file's contents: one the setup generated, or one that was there before. */
  datatype Body = Generated(content: Content) | Existing(text: string)

  /** The folders and files under the output directory. */
  datatype FileSystem = FileSystem(folders: set<FilePath>, files: map<FilePath, Body>)

  /** Whether a step writes the file at `p`. */
  predicate WritesTo(step: Step, p: FilePath) {
    step.Write? && step.path == p
  }

  /**
   * The effect of one step: a folder is created if missing, a file is
   * created or replaced as a whole; nothing else changes.
   */
  function ApplyStep(fs: FileSystem, step: Step): (r: FileSystem)
    ensures step.Write? ==> step.path in r.files && r.files[step.path] == Generated(step.content)
    ensures step.Write? ==> r.folders == fs.folders && r.files.Keys == fs.files.Keys + {step.path}
    ensures step.Write? ==> forall p | p in fs.files && p != step.path :: r.files[p] == fs.files[p]
    ensures step.MakeDirectory? ==> r.folders == fs.folders + {step.path} && r.files == fs.files
    ensures step.Say? || step.Run? ==> r == fs
  {
    match step
    case MakeDirectory(p) => FileSystem(fs.folders + {p}, fs.files)
    case Write(p, c) => FileSystem(fs.folders, fs.files[p := Generated(c)])
    case _ => fs
  }

  /** The effect of the steps, in order. */
  function Apply(fs: FileSystem, steps: seq<Step>): (r: FileSystem)
    ensures fs.folders <= r.folders && fs.files.Keys <= r.files.Keys
    decreases |steps|
  {
    if |steps| == 0 then fs else Apply(ApplyStep(fs, steps[0]), steps[1..])
  }

  /** Carrying out a concatenation is carrying out its first part, then its second. */
  lemma {:induction false} ApplyAppend(fs: FileSystem, a: seq<Step>, b: seq<Step>)
    ensures Apply(fs, a + b) == Apply(Apply(fs, a), b)
    decreases |a|
  {
    if |a| > 0 {
      assert (a + b)[0] == a[0];
      assert (a + b)[1..] == a[1..] + b;
      ApplyAppend(ApplyStep(fs, a[0]), a[1..], b);
    } else {
      assert a + b == b;
    }
  }

  /** The position of the last write to `p`, if any. */
  function LastWriteAt(steps: seq<Step>, p: FilePath): (r: Option<nat>)
    ensures r.Some? ==>
      && r.value < |steps|
      && WritesTo(steps[r.value], p)
      && forall j | r.value < j < |steps| :: !WritesTo(steps[j], p)
    ensures r.None? ==> forall i | 0 <= i < |steps| :: !WritesTo(steps[i], p)
    decreases |steps|
  {
    if |steps| == 0 then None
    else if WritesTo(steps[|steps| - 1], p) then Some(|steps| - 1)
    else
      var r := LastWriteAt(steps[..|steps| - 1], p);
      assert forall i | 0 <= i < |steps| - 1 :: steps[..|steps| - 1][i] == steps[i];
      r
  }

  /**
   * A path holds what the last write to it wrote; a path no step writes keeps
   * whatever it held before, and exists afterwards exactly when it existed.
   */
  lemma {:induction false} LastWriteWins(fs: FileSystem, steps: seq<Step>, p: FilePath)
    ensures var r := Apply(fs, steps);
      match LastWriteAt(steps, p)
      case Some(i) => p in r.files && r.files[p] == Generated(steps[i].content)
      case None => (p in r.files <==> p in fs.files) && (p in fs.files ==> r.files[p] == fs.files[p])
    decreases |steps|
  {
    if |steps| > 0 {
      var next := ApplyStep(fs, steps[0]);
      var tail := steps[1..];
      LastWriteWins(next, tail, p);
      var inTail := LastWriteAt(tail, p);
      match LastWriteAt(steps, p)
      case Some(i) =>
        if i > 0 {
          assert tail[i - 1] == steps[i];
          assert inTail == Some(i - 1);
        } else {
          assert inTail.None?;
        }
      case None =>
        assert !WritesTo(steps[0], p);
        assert inTail.None?;
    }
  }

  /** The folders afterwards are the folders before plus every folder a step creates. */
  lemma {:induction false} ApplyFolders(fs: FileSystem, steps: seq<Step>)
    ensures Apply(fs, steps).folders
      == fs.folders + set i | 0 <= i < |steps| && steps[i].MakeDirectory? :: steps[i].path
    decreases |steps|
  {
    if |steps| > 0 {
      var tail := steps[1..];
      ApplyFolders(ApplyStep(fs, steps[0]), tail);
      var made := set i | 0 <= i < |steps| && steps[i].MakeDirectory? :: steps[i].path;
      var madeTail := set i | 0 <= i < |tail| && tail[i].MakeDirectory? :: tail[i].path;
      assert made == (if steps[0].MakeDirectory? then {steps[0].path} else {}) + madeTail by {
        forall q | q in made
          ensures q in (if steps[0].MakeDirectory? then {steps[0].path} else {}) + madeTail
        {
          var i :| 0 <= i < |steps| && steps[i].MakeDirectory? && steps[i].path == q;
          if i > 0 {
            assert tail[i - 1] == steps[i];
          }
        }
        forall q | q in madeTail
          ensures q in made
        {
          var i :| 0 <= i < |tail| && tail[i].MakeDirectory? && tail[i].path == q;
          assert steps[i + 1] == tail[i];
        }
      }
    }
  }

  /** Carrying out the file steps of a plan a second time leaves the same folders and files. */
  lemma {:induction false} ApplyIdempotent(fs: FileSystem, steps: seq<Step>)
    ensures Apply(Apply(fs, steps), steps) == Apply(fs, steps)
  {
    var once := Apply(fs, steps);
    var twice := Apply(once, steps);
    ApplyFolders(fs, steps);
    ApplyFolders(once, steps);
    forall p
      ensures (p in twice.files <==> p in once.files) && (p in once.files ==> twice.files[p] == once.files[p])
    {
      LastWriteWins(fs, steps, p);
      LastWriteWins(once, steps, p);
    }
    assert twice.files.Keys == once.files.Keys;
  }

  /** What the Tailwind CSS enhancement's existence checks see in a file system. */
  function ProbeOf(fs: FileSystem, project: FilePath): (r: Probe)
    ensures r.srcDirectory <==> Combine(project, ["src"]) in fs.folders
    ensures r.indexCss <==> Combine(project, ["src", "index.css"]) in fs.files
    ensures r.styleCss <==> Combine(project, ["src", "style.css"]) in fs.files
  {
    Probe(
      Combine(project, ["src"]) in fs.folders,
      Combine(project, ["src", "index.css"]) in fs.files,
      Combine(project, ["src", "style.css"]) in fs.files)
  }

  /**
   * The Tailwind CSS files written against what is on disk: with a `src`
   * folder the chosen stylesheet ends up holding exactly the directives, and
   * it is a stylesheet already there whenever one of the two candidates is.
   * Without one no stylesheet is touched.
   */
  lemma {:induction false} DirectivesReplaceStylesheet(fs: FileSystem, project: FilePath)
    ensures var files := EnhancementFiles(TailwindCss, project, ProbeOf(fs, project));
      var target := StylesheetTarget(ProbeOf(fs, project), project);
      var r := Apply(fs, files);
      && (target.Some? ==> target.value in r.files && r.files[target.value] == Generated(TailwindDirectives))
      && ((target.Some? && (Combine(project, ["src", "index.css"]) in fs.files || Combine(project, ["src", "style.css"]) in fs.files))
            ==> target.value in fs.files)
      && (target.None? ==> forall i | 0 <= i < |files| :: files[i].Write? ==> files[i].content == TailwindConfig)
  {
    var probe := ProbeOf(fs, project);
    var files := EnhancementFiles(TailwindCss, project, probe);
    var target := StylesheetTarget(probe, project);
    var config := Combine(project, ["tailwind.config.js"]);
    if target.Some? {
      assert files == [Write(config, TailwindConfig), Write(target.value, TailwindDirectives), Say(AddedTailwindDirectives)];
      assert config.segments[|project.segments|..] == ["tailwind.config.js"];
      assert target.value.segments[|project.segments|..] != ["tailwind.config.js"];
      assert LastWriteAt(files, target.value) == Some(1);
      LastWriteWins(fs, files, target.value);
    }
  }

  /** Writing the Tailwind CSS files twice leaves the same content as writing them once. */
  lemma {:induction false} TailwindFilesIdempotent(fs: FileSystem, project: FilePath, probe: Probe)
    ensures var files := EnhancementFiles(TailwindCss, project, probe);
      Apply(Apply(fs, files), files) == Apply(fs, files)
  {
    ApplyIdempotent(fs, EnhancementFiles(TailwindCss, project, probe));
  }
}

=== FILE: naming.dfy ===
/**
 * The checks the create button performs before any setup starts, and the
 * sanitised project name every later command and path is built from.
 *
 * The typed name is trimmed, refused when blank, and then made folder- and
 * package-friendly: every space becomes a hyphen, then the name is lowercased.
 */
module Naming {
  import opened Common

  /** The characters `char.IsWhiteSpace` accepts, and so `string.Trim` removes. */
  predicate IsWhiteSpace(c: char) {
    var n := c as int;
    || 0x09 <= n <= 0x0D
    || n == 0x20
    || n == 0x85
    || n == 0xA0
    || n == 0x1680
    || 0x2000 <= n <= 0x200A
    || n == 0x2028
    || n == 0x2029
    || n == 0x202F
    || n == 0x205F
    || n == 0x3000
  }

  /** `string.IsNullOrWhiteSpace`: empty, or whitespace only. */
  predicate IsBlank(s: string) {
    forall i | 0 <= i < |s| :: IsWhiteSpace(s[i])
  }

  predicate IsAsciiUpper(c: char) {
    'A' <= c <= 'Z'
  }

  /** `s` without its leading whitespace. */
  function TrimStart(s: string): (r: string)
    ensures |r| <= |s| && r == s[|s| - |r|..]
    ensures forall i | 0 <= i < |s| - |r| :: IsWhiteSpace(s[i])
    ensures |r| > 0 ==> !IsWhiteSpace(r[0])
    decreases |s|
  {
    if |s| > 0 && IsWhiteSpace(s[0]) then TrimStart(s[1..]) else s
  }

  /** `s` without its trailing whitespace. */
  function TrimEnd(s: string): (r: string)
    ensures r <= s
    ensures forall i | |r| <= i < |s| :: IsWhiteSpace(s[i])
    ensures |r| > 0 ==> !IsWhiteSpace(r[|r| - 1])
    decreases |s|
  {
    if |s| > 0 && IsWhiteSpace(s[|s| - 1]) then TrimEnd(s[..|s| - 1]) else s
  }

  /**
   * `string.Trim`: the longest run of `s` that neither starts nor ends with
   * whitespace, once the whitespace at both ends is removed.
   */
  function Trim(s: string): (r: string)
    ensures Contains(s, r)
    ensures TrimmedFrom(s, r)
    ensures HasNoEdgeWhiteSpace(r)
    ensures |r| == 0 <==> IsBlank(s)
  {
    var front := TrimStart(s);
    var r := TrimEnd(front);
    TrimFacts(s, front, r);
    r
  }

  /** `s` neither starts nor ends with whitespace. */
  predicate HasNoEdgeWhiteSpace(s: string) {
    |s| > 0 ==> !IsWhiteSpace(s[0]) && !IsWhiteSpace(s[|s| - 1])
  }

  /** `r` is `s` with some whitespace removed from each end. */
  predicate TrimmedFrom(s: string, r: string) {
    exists k | 0 <= k <= |s| - |r| :: TrimmedAt(s, r, k)
  }

  /** `r` sits at position `k` of `s`, and everything of `s` around it is whitespace. */
  predicate TrimmedAt(s: string, r: string, k: int) {
    OccursAt(s, r, k) && IsBlank(s[..k]) && IsBlank(s[k + |r|..])
  }

  /**
   * A run `r` that starts `front`, where `front` ends `s`, sits in `s` with only
   * whitespace around it when whitespace is all that precedes `front` in `s`
   * and all that follows `r` in `front`.
   */
  lemma {:induction false} WhitespaceAround(s: string, front: string, r: string)
    requires |front| <= |s| && front == s[|s| - |front|..]
    requires forall i | 0 <= i < |s| - |front| :: IsWhiteSpace(s[i])
    requires r <= front
    requires forall i | |r| <= i < |front| :: IsWhiteSpace(front[i])
    ensures TrimmedAt(s, r, |s| - |front|)
    ensures Contains(s, r)
    ensures TrimmedFrom(s, r)
  {
    var k := |s| - |front|;
    assert s[k..k + |r|] == front[..|r|];
    BlankPrefix(s, k);
    assert s[k + |r|..] == front[|r|..];
    BlankSuffix(front, |r|);
    OccursContains(s, r, k);
    assert TrimmedAt(s, r, k);
  }

  /** A prefix of whitespace characters is blank. */
  lemma {:induction false} BlankPrefix(s: string, k: int)
    requires 0 <= k <= |s|
    requires forall i | 0 <= i < k :: IsWhiteSpace(s[i])
    ensures IsBlank(s[..k])
  {
    forall i | 0 <= i < k
      ensures IsWhiteSpace(s[..k][i])
    {
      assert s[..k][i] == s[i];
    }
  }

  /** A suffix of whitespace characters is blank. */
  lemma {:induction false} BlankSuffix(s: string, k: int)
    requires 0 <= k <= |s|
    requires forall i | k <= i < |s| :: IsWhiteSpace(s[i])
    ensures IsBlank(s[k..])
  {
    forall i | 0 <= i < |s| - k
      ensures IsWhiteSpace(s[k..][i])
    {
      assert s[k..][i] == s[k + i];
    }
  }

  /**
   * Trimming a text that neither starts nor ends with whitespace leaves it as
   * it is, so trimming twice is trimming once.
   */
  lemma {:induction false} TrimClean(s: string)
    requires HasNoEdgeWhiteSpace(s)
    ensures Trim(s) == s
  {
    assert TrimStart(s) == s;
    assert TrimEnd(s) == s;
  }

  /** Trimming is idempotent. */
  lemma {:induction false} TrimIdempotent(s: string)
    ensures Trim(Trim(s)) == Trim(s)
  {
    TrimClean(Trim(s));
  }

  /**
   * The properties of a trimmed text, from what trimming each end guarantees:
   * `front` is `s` without leading whitespace, and `r` is `front` without
   * trailing whitespace.
   */
  lemma {:induction false} TrimFacts(s: string, front: string, r: string)
    requires |front| <= |s| && front == s[|s| - |front|..]
    requires forall i | 0 <= i < |s| - |front| :: IsWhiteSpace(s[i])
    requires |front| > 0 ==> !IsWhiteSpace(front[0])
    requires r <= front
    requires forall i | |r| <= i < |front| :: IsWhiteSpace(front[i])
    requires |r| > 0 ==> !IsWhiteSpace(r[|r| - 1])
    ensures Contains(s, r)
    ensures TrimmedFrom(s, r)
    ensures HasNoEdgeWhiteSpace(r)
    ensures |r| == 0 <==> IsBlank(s)
  {
    WhitespaceAround(s, front, r);
    var k := |s| - |front|;
    if |r| == 0 {
      assert |front| == 0;
    } else {
      assert r[0] == front[0] == s[k];
    }
  }

  /** `string.Replace(" ", "-")`. */
  function ReplaceSpaces(s: string): (r: string)
    ensures |r| == |s|
    ensures ' ' !in r
    ensures forall i | 0 <= i < |s| && s[i] != ' ' :: r[i] == s[i]
    ensures forall i | 0 <= i < |s| && s[i] == ' ' :: r[i] == '-'
  {
    seq(|s|, i requires 0 <= i < |s| => if s[i] == ' ' then '-' else s[i])
  }

  /** `char.ToLower` on ASCII letters; every other character is kept. */
  function ToLowerChar(c: char): (d: char)
    ensures !IsAsciiUpper(d)
    ensures IsAsciiUpper(c) ==> d != c && d as int - c as int == 'a' as int - 'A' as int
    ensures !IsAsciiUpper(c) ==> d == c
  {
    if IsAsciiUpper(c) then (c as int - 'A' as int + 'a' as int) as char else c
  }

  /** `string.ToLower`, character by character. */
  function ToLower(s: string): (r: string)
    ensures |r| == |s|
    ensures forall i | 0 <= i < |r| :: !IsAsciiUpper(r[i])
  {
    seq(|s|, i requires 0 <= i < |s| => ToLowerChar(s[i]))
  }

  /** The project name used for folders and commands: spaces to hyphens, then lowercase. */
  function Sanitize(name: string): (r: string)
    ensures |r| == |name|
    ensures ' ' !in r
    ensures forall i | 0 <= i < |r| :: !IsAsciiUpper(r[i])
    ensures forall i | 0 <= i < |name| && name[i] != ' ' && !IsAsciiUpper(name[i]) :: r[i] == name[i]
    ensures forall i | 0 <= i < |name| && name[i] == ' ' :: r[i] == '-'
    ensures forall i | 0 <= i < |name| && IsAsciiUpper(name[i]) :: r[i] == ToLowerChar(name[i])
  {
    var r := ToLower(ReplaceSpaces(name));
    assert forall i | 0 <= i < |r| :: r[i] == ToLowerChar(ReplaceSpaces(name)[i]);
    r
  }

  /** A name is left unchanged by sanitising exactly when it has no space and no upper-case letter. */
  lemma {:induction false} SanitizeFixedPoints(name: string)
    ensures Sanitize(name) == name <==> (' ' !in name && forall i | 0 <= i < |name| :: !IsAsciiUpper(name[i]))
  {
    if ' ' !in name && forall i | 0 <= i < |name| :: !IsAsciiUpper(name[i]) {
      var r := Sanitize(name);
      assert forall i | 0 <= i < |name| :: r[i] == name[i];
    }
  }

  /** Sanitising twice is sanitising once. */
  lemma {:induction false} SanitizeIdempotent(name: string)
    ensures Sanitize(Sanitize(name)) == Sanitize(name)
  {
    SanitizeFixedPoints(Sanitize(name));
  }

  /** Why the create button refuses to start. */
  datatype InputError = MissingName | MissingLocation | MissingTemplate

  /** What the create button hands to the setup once every check passed. */
  datatype Request = Request(
    projectName: string,
    outputDirectory: string,
    template: string,
    enhancements: seq<string>)

  /**
   * The create button's checks, in their order: a non-blank name, a chosen
   * location, a chosen template. The accepted request carries the sanitised
   * name and the checked enhancements in list order.
   */
  function ValidateInput(
    typedName: string,
    outputDirectory: string,
    selectedTemplate: Option<string>,
    checkedEnhancements: seq<string>): (r: Result<Request, InputError>)
    ensures r.Failure? <==>
      || IsBlank(typedName)
      || IsBlank(outputDirectory)
      || selectedTemplate == None
      || selectedTemplate == Some("")
    ensures IsBlank(typedName) ==> r == Failure(MissingName)
    ensures !IsBlank(typedName) && IsBlank(outputDirectory) ==> r == Failure(MissingLocation)
    ensures !IsBlank(typedName) && !IsBlank(outputDirectory) && r.Failure? ==> r.error == MissingTemplate
    ensures r.Success? ==>
      && r.value.projectName == Sanitize(Trim(typedName))
      && |r.value.projectName| > 0
      && ' ' !in r.value.projectName
      && Some(r.value.template) == selectedTemplate
      && r.value.outputDirectory == outputDirectory
      && r.value.enhancements == checkedEnhancements
  {
    var name := Trim(typedName);
    if IsBlank(name) then Failure(MissingName)
    else if IsBlank(outputDirectory) then Failure(MissingLocation)
    else
      var projectName := Sanitize(name);
      match selectedTemplate
      case None => Failure(MissingTemplate)
      case Some(t) =>
        if t == "" then Failure(MissingTemplate)
        else Success(Request(projectName, outputDirectory, t, checkedEnhancements))
  }
}

=== FILE: paths.dfy ===
/**
 * Paths of the generated project and the shortened form of a path shown next
 * to the location button.
 *
 * A project file is addressed structurally: the output directory chosen by the
 * user plus the folder names below it, as `Path.Combine` builds them. The
 * shortening works on the rendered string, split at the directory separator.
 */
module Paths {

  /** The directory separator of the host the tool runs on (Windows). */
  const Separator: char := '\\'

  /** How many trailing folders the location label keeps: the default the form relies on. */
  const DefaultMaxFolders: int := 4

  /** The range of a C# `int`. */
  const Int32Min: int := -0x8000_0000
  const Int32Max: int := 0x7FFF_FFFF

  predicate IsInt32(x: int) {
    Int32Min <= x <= Int32Max
  }

  /** C# `int` subtraction in an unchecked context: the difference, wrapped into the `int` range. */
  function Sub32(a: int, b: int): (r: int)
    requires IsInt32(a) && IsInt32(b)
    ensures IsInt32(r)
    ensures r == a - b || r == a - b - 0x1_0000_0000 || r == a - b + 0x1_0000_0000
    ensures IsInt32(a - b) ==> r == a - b
  {
    var d := a - b;
    if d > Int32Max then d - 0x1_0000_0000
    else if d < Int32Min then d + 0x1_0000_0000
    else d
  }

  /** How many of `n` items are left after `Enumerable.Skip(count)`. */
  function SkipLeaves(n: nat, count: int): (r: nat)
    ensures r <= n
    ensures count <= 0 ==> r == n
    ensures count >= n ==> r == 0
    ensures 0 <= count <= n ==> r + count == n
  {
    if count <= 0 then n else if count >= n then 0 else n - count
  }

  /** The marker that replaces the folders dropped from the front of a path. */
  const Ellipsis: string := "..."

  /** A path: a root directory followed by the names of the entries below it. */
  datatype FilePath = FilePath(root: string, segments: seq<string>)

  /** `Path.Combine(p, s1, s2, ...)` for relative names `s1, s2, ...`. */
  function Combine(p: FilePath, more: seq<string>): (r: FilePath)
    ensures r.root == p.root
    ensures p.segments <= r.segments
    ensures r.segments[|p.segments|..] == more
  {
    FilePath(p.root, p.segments + more)
  }

  /** `s` split at every occurrence of `sep`, as `string.Split(char)` does. */
  function Split(s: string, sep: char): (parts: seq<string>)
    ensures |parts| >= 1
    ensures |parts| <= |s| + 1
    ensures forall i | 0 <= i < |parts| :: sep !in parts[i]
    decreases |s|
  {
    if |s| == 0 then [""]
    else
      var rest := Split(s[1..], sep);
      if s[0] == sep then [""] + rest
      else [[s[0]] + rest[0]] + rest[1..]
  }

  /** The parts glued together with `sep` between neighbours, as `string.Join` does. */
  function Join(parts: seq<string>, sep: char): string
    decreases |parts|
  {
    if |parts| == 0 then ""
    else if |parts| == 1 then parts[0]
    else parts[0] + [sep] + Join(parts[1..], sep)
  }

  /**
   * A join starts with the first piece and ends with the last, and its length
   * is the pieces' total length plus one separator between each two neighbours.
   */
  lemma {:induction false} JoinEnds(parts: seq<string>, sep: char)
    requires |parts| >= 1
    ensures parts[0] <= Join(parts, sep)
    ensures var j := Join(parts, sep); var last := parts[|parts| - 1];
      |last| <= |j| && j[|j| - |last|..] == last
    ensures |Join(parts, sep)| == Length(parts) + |parts| - 1
    decreases |parts|
  {
    if |parts| >= 2 {
      var tail := Join(parts[1..], sep);
      JoinEnds(parts[1..], sep);
      assert parts[1..][|parts| - 2] == parts[|parts| - 1];
      var j := parts[0] + [sep] + tail;
      assert Join(parts, sep) == j;
      assert j[|j| - |tail|..] == tail;
      assert Length(parts) == |parts[0]| + Length(parts[1..]);
    }
  }

  /** The total length of the pieces. */
  function Length(parts: seq<string>): nat
    decreases |parts|
  {
    if |parts| == 0 then 0 else |parts[0]| + Length(parts[1..])
  }

  /** Joining a piece in front of a non-empty list puts one separator between them. */
  lemma {:induction false} JoinCons(x: string, rest: seq<string>, sep: char)
    requires |rest| >= 1
    ensures Join([x] + rest, sep) == x + [sep] + Join(rest, sep)
  {
    assert ([x] + rest)[1..] == rest;
  }

  /** Joining the pieces of a split gives back the original string. */
  lemma {:induction false} JoinSplit(s: string, sep: char)
    ensures Join(Split(s, sep), sep) == s
    decreases |s|
  {
    if |s| > 0 {
      var t := s[1..];
      var rest := Split(t, sep);
      JoinSplit(t, sep);
      assert s == [s[0]] + t;
      if s[0] == sep {
        assert Split(s, sep) == [""] + rest;
        JoinCons("", rest, sep);
      } else {
        var head := [s[0]] + rest[0];
        assert Split(s, sep) == [head] + rest[1..];
        if |rest| == 1 {
          assert Join([head], sep) == head;
          assert Join(rest, sep) == rest[0];
        } else {
          JoinCons(head, rest[1..], sep);
          assert rest == [rest[0]] + rest[1..];
          JoinCons(rest[0], rest[1..], sep);
        }
      }
    }
  }

  /** Splitting a string whose first piece `a` holds no separator. */
  lemma {:induction false} SplitAfterPiece(a: string, rest: string, sep: char)
    requires sep !in a
    ensures Split(a + rest, sep) == [a + Split(rest, sep)[0]] + Split(rest, sep)[1..]
    decreases |a|
  {
    var parts := Split(rest, sep);
    if |a| > 0 {
      var s := a + rest;
      assert a[0] in a;
      assert s[0] == a[0] && s[0] != sep;
      assert s[1..] == a[1..] + rest;
      SplitAfterPiece(a[1..], rest, sep);
      var tail := Split(s[1..], sep);
      assert tail[0] == a[1..] + parts[0] && tail[1..] == parts[1..];
      assert Split(s, sep) == [[a[0]] + tail[0]] + tail[1..];
      assert [a[0]] + (a[1..] + parts[0]) == a + parts[0];
    } else {
      assert a + rest == rest;
      assert a + parts[0] == parts[0];
      assert [parts[0]] + parts[1..] == parts;
    }
  }

  /** Splitting a join of separator-free pieces gives back the pieces. */
  lemma {:induction false} SplitJoin(parts: seq<string>, sep: char)
    requires |parts| >= 1
    requires forall i | 0 <= i < |parts| :: sep !in parts[i]
    ensures Split(Join(parts, sep), sep) == parts
    decreases |parts|
  {
    if |parts| == 1 {
      assert Split(parts[0] + "", sep) == [parts[0] + Split("", sep)[0]] + Split("", sep)[1..] by {
        SplitAfterPiece(parts[0], "", sep);
      }
      assert parts[0] + "" == parts[0];
      assert Split("", sep) == [""];
    } else {
      var tail := Join(parts[1..], sep);
      SplitJoin(parts[1..], sep);
      var s := [sep] + tail;
      assert Split(s, sep) == [""] + Split(tail, sep) by {
        assert s[0] == sep;
        assert s[1..] == tail;
      }
      SplitAfterPiece(parts[0], s, sep);
      JoinCons(parts[0], parts[1..], sep);
      assert [parts[0]] + parts[1..] == parts;
      assert Join(parts, sep) == parts[0] + s;
      assert parts[0] + "" == parts[0];
    }
  }

  /**
   * The path shown in the location label: unchanged when it has at most
   * `maxFolders` separator-delimited pieces, otherwise the ellipsis followed by
   * the pieces `Skip(count)` leaves, where `count` is the piece count minus
   * `maxFolders` in `int` arithmetic. That is the last `maxFolders` pieces, or
   * none when `maxFolders` is not positive; but when the subtraction wraps
   * around to a negative count, as for `maxFolders == int.MinValue`, nothing is
   * skipped and the whole path follows the ellipsis.
   */
  function ShortenPath(path: string, maxFolders: int): (r: string)
    requires IsInt32(maxFolders)
    requires |path| < Int32Max
    ensures |Split(path, Separator)| <= maxFolders ==> r == path
    ensures |Split(path, Separator)| > maxFolders ==> Ellipsis + [Separator] <= r
    ensures |Split(path, Separator)| > maxFolders && |Split(path, Separator)| - 0x8000_0000 < maxFolders <= 0
      ==> r == Ellipsis + [Separator]
    ensures maxFolders <= |Split(path, Separator)| - 0x8000_0000 ==> r == Ellipsis + [Separator] + path
  {
    var folders := Split(path, Separator);
    if |folders| <= maxFolders then path
    else
      var count := Sub32(|folders|, maxFolders);
      var keep := SkipLeaves(|folders|, count);
      assert count < 0 ==> folders[|folders| - keep..] == folders;
      JoinSplit(path, Separator);
      Shortened(folders, keep)
  }

  /** The ellipsis and a separator, followed by the last `keep` folders joined. */
  function Shortened(folders: seq<string>, keep: nat): string
    requires keep <= |folders|
  {
    Ellipsis + [Separator] + Join(folders[|folders| - keep..], Separator)
  }

  /**
   * A shortened path is the ellipsis followed by exactly the last `maxFolders`
   * folders of the original, in their original order.
   */
  lemma {:induction false} ShortenPathKeepsLastFolders(path: string, maxFolders: int)
    requires |path| < Int32Max
    requires maxFolders >= 1
    requires |Split(path, Separator)| > maxFolders
    ensures var folders := Split(path, Separator);
      Split(ShortenPath(path, maxFolders), Separator)
        == [Ellipsis] + folders[|folders| - maxFolders..]
  {
    var folders := Split(path, Separator);
    var parts := [Ellipsis] + folders[|folders| - maxFolders..];
    ShortenedIsJoin(path, maxFolders);
    SeparatorFreeParts(folders, |folders| - maxFolders);
    SplitJoin(parts, Separator);
  }

  /** A shortened path is the join of the ellipsis and the kept folders. */
  lemma {:induction false} ShortenedIsJoin(path: string, maxFolders: int)
    requires |path| < Int32Max
    requires maxFolders >= 1
    requires |Split(path, Separator)| > maxFolders
    ensures var folders := Split(path, Separator);
      ShortenPath(path, maxFolders) == Join([Ellipsis] + folders[|folders| - maxFolders..], Separator)
  {
    var folders := Split(path, Separator);
    var kept := folders[|folders| - maxFolders..];
    ShortenedForm(path, maxFolders);
    JoinCons(Ellipsis, kept, Separator);
  }

  /** Past the limit the label is the ellipsis, a separator and the kept folders joined. */
  lemma {:induction false} ShortenedForm(path: string, maxFolders: int)
    requires |path| < Int32Max
    requires maxFolders >= 1
    requires |Split(path, Separator)| > maxFolders
    ensures ShortenPath(path, maxFolders) == Shortened(Split(path, Separator), maxFolders)
  {
    var folders := Split(path, Separator);
    var count := Sub32(|folders|, maxFolders);
    assert count == |folders| - maxFolders;
    assert SkipLeaves(|folders|, count) == maxFolders;
  }

  /**
   * The location label as the form computes it, with the default limit: a
   * path of at most four pieces is shown whole, a longer one as the ellipsis
   * followed by its last four pieces.
   */
  lemma {:induction false} DefaultShortening(path: string)
    requires |path| < Int32Max
    ensures var folders := Split(path, Separator);
      && (|folders| <= DefaultMaxFolders ==> ShortenPath(path, DefaultMaxFolders) == path)
      && (|folders| > DefaultMaxFolders ==>
            Split(ShortenPath(path, DefaultMaxFolders), Separator) == [Ellipsis] + folders[|folders| - DefaultMaxFolders..])
  {
    if |Split(path, Separator)| > DefaultMaxFolders {
      ShortenPathKeepsLastFolders(path, DefaultMaxFolders);
    }
  }

  /** The ellipsis followed by any tail of a split holds no separator in any piece. */
  lemma {:induction false} SeparatorFreeParts(folders: seq<string>, from: int)
    requires 0 <= from <= |folders|
    requires forall i | 0 <= i < |folders| :: Separator !in folders[i]
    ensures forall i | 0 <= i < |[Ellipsis] + folders[from..]| :: Separator !in ([Ellipsis] + folders[from..])[i]
  {
    var parts := [Ellipsis] + folders[from..];
    forall i | 0 <= i < |parts|
      ensures Separator !in parts[i]
    {
      if i > 0 {
        assert parts[i] == folders[from + i - 1];
      }
    }
  }
}

=== FILE: plan.dfy ===
/**
 * The setup plan: the ordered steps the create button carries out for a
 * template, a list of enhancements and a sanitised project name.
 *
 * The setup builds and carries out its steps in one pass; here the building is
 * pulled out as a pure function from the selection to a sequence of steps, and
 * the carrying out lives in the Runner module. Every shell command runs from
 * the chosen output directory. A scaffold command names the project itself;
 * every post-install and enhancement command's text begins with
 * `cd <name> && `. The name goes into those texts unquoted, and into paths
 * unchecked, so the project folder is reached only when the name is a plain
 * folder name. The three existence checks made by the Tailwind CSS
 * enhancement are inputs (a `Probe`).
 */
module Plan {
  import opened Common
  import opened Paths
  import opened Catalog

  /** What the Tailwind CSS enhancement finds under the project folder when it runs. */
  datatype Probe = Probe(srcDirectory: bool, indexCss: bool, styleCss: bool)

  /**
   * Generated file contents. The configuration texts are fixed literals; the
   * standalone page and script embed the project name.
   */
  datatype Content =
    | StandalonePage(projectName: string)
    | StandaloneScript(projectName: string)
    | TailwindConfig
    | TailwindDirectives
    | EslintConfig
    | PrettierConfig
    | VitestConfig
    | TypeScriptConfig

  /** The lines the setup itself writes to the output pane. */
  datatype Message =
    | SettingUp(template: string, projectName: string)
    | CreatingDirectory(path: FilePath)
    | CreatedPage
    | CreatedScript
    | StandaloneReady
    | ApplyingEnhancements
    | Adding(enhancementName: string)
    | AddedTailwindDirectives
    | Added(enhancement: Enhancement)

  /** One step of a setup, in the order the setup carries it out. */
  datatype Step =
    | Say(message: Message)
    | Run(command: string, workingDirectory: string)
    | MakeDirectory(path: FilePath)
    | Write(path: FilePath, content: Content)

  /** The steps of a setup and the command that later starts its development server. */
  datatype SetupPlan = SetupPlan(steps: seq<Step>, startCommand: string)

  /** The start command set before the template is looked at. */
  const DefaultStartCommand: string := "npm run dev"

  /** The start command of the standalone page: open the browser and serve the folder. */
  const StandaloneStartCommand: string := "start \"\" http://localhost:8000 && python -m http.server"

  /** The prefix of every post-install and enhancement command: `cd` to the name, unquoted. */
  function CdInto(projectName: string): string {
    "cd " + projectName + " && "
  }

  /** The project folder: the project name as a path segment below the output directory. */
  function ProjectFolder(outputDirectory: string, projectName: string): FilePath {
    FilePath(outputDirectory, [projectName])
  }

  /**
   * A path structurally below the project folder: the output directory as
   * root and the name as first segment. What the path names on disk for a
   * rooted name or `..` is not captured.
   */
  predicate InProject(p: FilePath, outputDirectory: string, projectName: string) {
    p.root == outputDirectory && |p.segments| >= 2 && p.segments[0] == projectName
  }

  /** The shell commands of a sequence of steps, in order. */
  function Commands(steps: seq<Step>): (r: seq<string>)
    ensures |r| <= |steps|
    decreases |steps|
  {
    if |steps| == 0 then []
    else (if steps[0].Run? then [steps[0].command] else []) + Commands(steps[1..])
  }

  /** The commands of two step sequences one after the other. */
  lemma {:induction false} CommandsAppend(a: seq<Step>, b: seq<Step>)
    ensures Commands(a + b) == Commands(a) + Commands(b)
    decreases |a|
  {
    if |a| > 0 {
      assert (a + b)[1..] == a[1..] + b;
      CommandsAppend(a[1..], b);
    } else {
      assert a + b == b;
    }
  }

  /** Steps that run nothing have no commands. */
  lemma {:induction false} NoCommands(steps: seq<Step>)
    requires forall i | 0 <= i < |steps| :: !steps[i].Run?
    ensures Commands(steps) == []
    decreases |steps|
  {
    if |steps| > 0 {
      NoCommands(steps[1..]);
    }
  }

  /** Each command as a step run from `workingDirectory`, in the given order. */
  function RunAll(commands: seq<string>, workingDirectory: string): (r: seq<Step>)
    ensures |r| == |commands|
    ensures forall i | 0 <= i < |r| :: r[i] == Run(commands[i], workingDirectory)
    ensures Commands(r) == commands
    decreases |commands|
  {
    if |commands| == 0 then []
    else
      var r := [Run(commands[0], workingDirectory)] + RunAll(commands[1..], workingDirectory);
      assert r[1..] == RunAll(commands[1..], workingDirectory);
      r
  }

  // ---------------------------------------------------------------------------
  // Templates

  /** The scaffold command of a template; empty for the standalone page and an unknown name. */
  function ScaffoldCommand(t: Template, projectName: string): (r: string)
    ensures r == "" <==> t == TailwindStandalone || t.UnknownTemplate?
  {
    match t
    case React => "npx --yes create-react-app " + projectName
    case ReactVite => "npm create vite@latest " + projectName + " -y -- --template react"
    case ViteVanilla => "npm create vite@latest " + projectName + " -y -- --template vanilla"
    case Svelte => "npx --yes degit sveltejs/template " + projectName
    case SvelteKit => "npm create svelte@latest " + projectName + " -y"
    case Vue => "npm create vue@latest " + projectName + " -y"
    case NextJs => "npx --yes create-next-app@latest " + projectName
    case ThreeJs => "npm create vite@latest " + projectName + " -y -- --template vanilla"
    case Express => "npx --yes express-generator " + projectName
    case Angular => "npx --yes @angular/cli new " + projectName + " --defaults"
    case TailwindStandalone => ""
    case UnknownTemplate(_) => ""
  }

  /** The commands a template runs after its scaffold, in order. */
  function PostInstallCommands(t: Template, projectName: string): (r: seq<string>)
    ensures forall i | 0 <= i < |r| :: CdInto(projectName) <= r[i]
  {
    var install := CdInto(projectName) + "npm install";
    match t
    case ReactVite => [install]
    case ViteVanilla => [install]
    case Svelte => [install]
    case SvelteKit => [install]
    case Vue => [install]
    case ThreeJs => [install, CdInto(projectName) + "npm install three"]
    case Express => [install]
    case _ => []
  }

  /** The template's own commands: the scaffold when there is one, then the post-install commands. */
  function TemplateCommands(t: Template, projectName: string): (r: seq<string>)
    ensures ScaffoldCommand(t, projectName) != "" ==>
      |r| >= 1 && r[0] == ScaffoldCommand(t, projectName) && r[1..] == PostInstallCommands(t, projectName)
    ensures ScaffoldCommand(t, projectName) == "" ==> r == PostInstallCommands(t, projectName)
  {
    var scaffold := ScaffoldCommand(t, projectName);
    (if scaffold != "" then [scaffold] else []) + PostInstallCommands(t, projectName)
  }

  /** The command that starts the development server once the setup is done. */
  function StartCommand(t: Template): (r: string)
    ensures r == "npm start" <==> t == React || t == Express
    ensures r == "ng serve" <==> t == Angular
    ensures r == StandaloneStartCommand <==> t == TailwindStandalone
    ensures r == DefaultStartCommand <==> !(t in {React, Express, Angular, TailwindStandalone})
  {
    match t
    case React => "npm start"
    case Express => "npm start"
    case Angular => "ng serve"
    case TailwindStandalone => StandaloneStartCommand
    case _ => DefaultStartCommand
  }

  /** The standalone page: a folder with a page and a script, and no command at all. */
  function StandaloneSteps(outputDirectory: string, projectName: string): (r: seq<Step>)
    ensures forall i | 0 <= i < |r| :: !r[i].Run?
  {
    var project := ProjectFolder(outputDirectory, projectName);
    [ Say(CreatingDirectory(project)),
      MakeDirectory(project),
      MakeDirectory(Combine(project, ["js"])),
      Write(Combine(project, ["index.html"]), StandalonePage(projectName)),
      Say(CreatedPage),
      Write(Combine(project, ["js", "main.js"]), StandaloneScript(projectName)),
      Say(CreatedScript),
      Say(StandaloneReady) ]
  }

  // ---------------------------------------------------------------------------
  // Enhancements

  /**
   * The stylesheet that receives the Tailwind directives: none without a
   * `src` folder, otherwise the first of `src/index.css`, `src/style.css`
   * that exists, and `src/index.css` when neither does.
   */
  function StylesheetTarget(probe: Probe, project: FilePath): (r: Option<FilePath>)
    ensures r.Some? <==> probe.srcDirectory
    ensures r.Some? ==>
      r.value == Combine(project, ["src", "index.css"]) || r.value == Combine(project, ["src", "style.css"])
    ensures r.Some? && probe.indexCss ==> r.value == Combine(project, ["src", "index.css"])
    ensures r.Some? && r.value == Combine(project, ["src", "style.css"]) ==> probe.styleCss && !probe.indexCss
    ensures probe.srcDirectory && !probe.indexCss && !probe.styleCss ==>
      r == Some(Combine(project, ["src", "index.css"]))
  {
    if !probe.srcDirectory then None
    else if probe.indexCss then Some(Combine(project, ["src", "index.css"]))
    else if probe.styleCss then Some(Combine(project, ["src", "style.css"]))
    else Some(Combine(project, ["src", "index.css"]))
  }

  /** What an enhancement installs, in order, before the `cd` prefix; nothing for an unknown name. */
  function InstallSteps(e: Enhancement): (r: seq<string>)
    ensures r == [] <==> e.UnknownEnhancement?
    ensures |r| <= 2
  {
    match e
    case TailwindCss => ["npm install -D tailwindcss postcss autoprefixer --yes", "npx --yes tailwindcss init -p"]
    case EslintPrettier => ["npm install -D eslint prettier eslint-config-prettier eslint-plugin-prettier --yes"]
    case Sass => ["npm install -D sass --yes"]
    case Playwright => ["npm init playwright@latest -y"]
    case Vitest => ["npm install -D vitest --yes"]
    case TypeScript => ["npm install -D typescript @types/node --yes"]
    case UnknownEnhancement(_) => []
  }

  /** The install commands of an enhancement, each behind the `cd` prefix; none for an unknown name. */
  function EnhancementCommands(e: Enhancement, projectName: string): (r: seq<string>)
    ensures forall i | 0 <= i < |r| :: CdInto(projectName) <= r[i]
    ensures e.UnknownEnhancement? <==> r == []
  {
    PrefixEach(CdInto(projectName), InstallSteps(e))
  }

  /** Each string of `tails` with `prefix` in front, in order. */
  function PrefixEach(prefix: string, tails: seq<string>): (r: seq<string>)
    ensures |r| == |tails|
    ensures forall i | 0 <= i < |r| :: prefix <= r[i] && r[i][|prefix|..] == tails[i]
  {
    seq(|tails|, i requires 0 <= i < |tails| => prefix + tails[i])
  }

  /** What an enhancement does after its installs: file writes and their report lines. */
  function EnhancementFiles(e: Enhancement, project: FilePath, probe: Probe): (r: seq<Step>)
    ensures forall i | 0 <= i < |r| :: !r[i].Run? && !r[i].MakeDirectory?
    ensures forall i | 0 <= i < |r| && r[i].Write? ::
      project.segments < r[i].path.segments && r[i].path.root == project.root
  {
    match e
    case TailwindCss =>
      [Write(Combine(project, ["tailwind.config.js"]), TailwindConfig)]
      + (match StylesheetTarget(probe, project)
         case None => []
         case Some(css) => [Write(css, TailwindDirectives), Say(AddedTailwindDirectives)])
    case EslintPrettier =>
      [ Write(Combine(project, [".eslintrc.js"]), EslintConfig),
        Write(Combine(project, [".prettierrc"]), PrettierConfig),
        Say(Added(e)) ]
    case Sass => [Say(Added(e))]
    case Playwright => [Say(Added(e))]
    case Vitest => [Write(Combine(project, ["vitest.config.js"]), VitestConfig), Say(Added(e))]
    case TypeScript => [Write(Combine(project, ["tsconfig.json"]), TypeScriptConfig), Say(Added(e))]
    case UnknownEnhancement(_) => []
  }

  /** Every command of `steps` runs from the output directory and its text begins with `cd <name> && `. */
  predicate RunsInProject(steps: seq<Step>, projectName: string, outputDirectory: string) {
    forall i | 0 <= i < |steps| && steps[i].Run? ::
      CdInto(projectName) <= steps[i].command && steps[i].workingDirectory == outputDirectory
  }

  /** Every file write of `steps` has a path structurally below the project folder. */
  predicate WritesInProject(steps: seq<Step>, projectName: string, outputDirectory: string) {
    forall i | 0 <= i < |steps| && steps[i].Write? :: InProject(steps[i].path, outputDirectory, projectName)
  }

  /** Both properties hold of a concatenation when they hold of its parts. */
  lemma {:induction false} InProjectAppend(a: seq<Step>, b: seq<Step>, projectName: string, outputDirectory: string)
    requires RunsInProject(a, projectName, outputDirectory) && RunsInProject(b, projectName, outputDirectory)
    requires WritesInProject(a, projectName, outputDirectory) && WritesInProject(b, projectName, outputDirectory)
    ensures RunsInProject(a + b, projectName, outputDirectory)
    ensures WritesInProject(a + b, projectName, outputDirectory)
  {
    forall i | |a| <= i < |a + b|
      ensures (a + b)[i] == b[i - |a|]
    {
    }
  }

  /**
   * One enhancement's contiguous block: its announcement, then its installs,
   * then its file writes.
   */
  function EnhancementBlock(e: Enhancement, projectName: string, outputDirectory: string, probe: Probe): (r: seq<Step>)
    ensures |r| >= 1 && r[0] == Say(Adding(EnhancementName(e)))
  {
    var project := ProjectFolder(outputDirectory, projectName);
    var head := [Say(Adding(EnhancementName(e)))];
    var installs := RunAll(EnhancementCommands(e, projectName), outputDirectory);
    var files := EnhancementFiles(e, project, probe);
    head + installs + files
  }

  /** A block's three parts and the facts about each that the block lemmas rely on. */
  lemma {:induction false} BlockParts(e: Enhancement, projectName: string, outputDirectory: string, probe: Probe)
    returns (head: seq<Step>, installs: seq<Step>, files: seq<Step>)
    ensures EnhancementBlock(e, projectName, outputDirectory, probe) == head + installs + files
    ensures head == [Say(Adding(EnhancementName(e)))]
    ensures forall i | 0 <= i < |installs| :: installs[i].Run?
    ensures RunsInProject(installs, projectName, outputDirectory)
    ensures Commands(installs) == EnhancementCommands(e, projectName)
    ensures forall i | 0 <= i < |files| :: !files[i].Run?
    ensures forall i | 0 <= i < |files| && files[i].Write? ::
      [projectName] < files[i].path.segments && files[i].path.root == outputDirectory
  {
    head := [Say(Adding(EnhancementName(e)))];
    installs := RunAll(EnhancementCommands(e, projectName), outputDirectory);
    files := EnhancementFiles(e, ProjectFolder(outputDirectory, projectName), probe);
    InstallsInProject(EnhancementCommands(e, projectName), projectName, outputDirectory);
    FilesBelowProject(e, projectName, outputDirectory, probe);
  }

  /** Commands behind the `cd` prefix, run from the output directory, satisfy `RunsInProject`. */
  lemma {:induction false} InstallsInProject(commands: seq<string>, projectName: string, outputDirectory: string)
    requires forall i | 0 <= i < |commands| :: CdInto(projectName) <= commands[i]
    ensures var installs := RunAll(commands, outputDirectory);
      && (forall i | 0 <= i < |installs| :: installs[i].Run?)
      && RunsInProject(installs, projectName, outputDirectory)
  {
  }

  /** An enhancement's file steps run nothing and write below the project folder. */
  lemma {:induction false} FilesBelowProject(e: Enhancement, projectName: string, outputDirectory: string, probe: Probe)
    ensures var files := EnhancementFiles(e, ProjectFolder(outputDirectory, projectName), probe);
      && (forall i | 0 <= i < |files| :: !files[i].Run?)
      && (forall i | 0 <= i < |files| && files[i].Write? ::
            [projectName] < files[i].path.segments && files[i].path.root == outputDirectory)
  {
  }

  /**
   * Every command of a block runs from the output directory with a text that
   * begins with `cd <name> && `, and every file it writes has a path
   * structurally below the project folder.
   */
  lemma {:induction false} EnhancementBlockInProject(e: Enhancement, projectName: string, outputDirectory: string, probe: Probe)
    ensures RunsInProject(EnhancementBlock(e, projectName, outputDirectory, probe), projectName, outputDirectory)
    ensures WritesInProject(EnhancementBlock(e, projectName, outputDirectory, probe), projectName, outputDirectory)
  {
    var head, installs, files := BlockParts(e, projectName, outputDirectory, probe);
    BlockShape(head, installs, files, projectName, outputDirectory);
  }

  /** Within a block every install comes before every file write. */
  lemma {:induction false} EnhancementBlockOrder(e: Enhancement, projectName: string, outputDirectory: string, probe: Probe)
    ensures var r := EnhancementBlock(e, projectName, outputDirectory, probe);
      forall i, j | 0 <= i < j < |r| && r[i].Write? :: !r[j].Run?
  {
    var head, installs, files := BlockParts(e, projectName, outputDirectory, probe);
    BlockShape(head, installs, files, projectName, outputDirectory);
  }

  /** The commands of a block are exactly the enhancement's install commands, in order. */
  lemma {:induction false} EnhancementBlockCommands(e: Enhancement, projectName: string, outputDirectory: string, probe: Probe)
    ensures Commands(EnhancementBlock(e, projectName, outputDirectory, probe)) == EnhancementCommands(e, projectName)
  {
    var head, installs, files := BlockParts(e, projectName, outputDirectory, probe);
    NoCommands(head);
    NoCommands(files);
    CommandsAppend(head, installs);
    CommandsAppend(head + installs, files);
  }

  /** An enhancement the switch does not know contributes its announcement only. */
  lemma {:induction false} UnknownEnhancementOnlyAnnounced(name: string, projectName: string, outputDirectory: string, probe: Probe)
    ensures EnhancementBlock(UnknownEnhancement(name), projectName, outputDirectory, probe) == [Say(Adding(name))]
  {
    var e := UnknownEnhancement(name);
    assert RunAll(EnhancementCommands(e, projectName), outputDirectory) == [];
    assert EnhancementFiles(e, ProjectFolder(outputDirectory, projectName), probe) == [];
  }

  /** The facts about a block's three parts that make the block's contract hold. */
  lemma {:induction false} BlockShape(head: seq<Step>, installs: seq<Step>, files: seq<Step>, projectName: string, outputDirectory: string)
    requires forall i | 0 <= i < |head| :: head[i].Say?
    requires forall i | 0 <= i < |installs| :: installs[i].Run?
    requires RunsInProject(installs, projectName, outputDirectory)
    requires forall i | 0 <= i < |files| :: !files[i].Run?
    requires forall i | 0 <= i < |files| && files[i].Write? ::
      [projectName] < files[i].path.segments && files[i].path.root == outputDirectory
    ensures RunsInProject(head + installs + files, projectName, outputDirectory)
    ensures WritesInProject(head + installs + files, projectName, outputDirectory)
    ensures var r := head + installs + files; forall i, j | 0 <= i < j < |r| && r[i].Write? :: !r[j].Run?
  {
    var r := head + installs + files;
    var n := |head| + |installs|;
    assert forall i | n <= i < |r| :: r[i] == files[i - n];
    assert forall i | |head| <= i < n :: r[i] == installs[i - |head|];
    assert forall i | 0 <= i < |head| :: r[i] == head[i];
    forall i | 0 <= i < |r| && r[i].Write?
      ensures InProject(r[i].path, outputDirectory, projectName)
    {
      var p := files[i - n].path;
      assert [projectName] < p.segments;
      assert p.segments[0] == [projectName][0];
    }
  }

  /** The blocks of the enhancements, in the caller's order. */
  function EnhancementBlocks(es: seq<Enhancement>, projectName: string, outputDirectory: string, probe: Probe): (r: seq<Step>)
    ensures |r| >= |es|
    decreases |es|
  {
    if |es| == 0 then []
    else EnhancementBlock(es[0], projectName, outputDirectory, probe) + EnhancementBlocks(es[1..], projectName, outputDirectory, probe)
  }

  /** Across all the blocks, commands carry the `cd` prefix and writes lie structurally below the project folder. */
  lemma {:induction false} EnhancementBlocksInProject(es: seq<Enhancement>, projectName: string, outputDirectory: string, probe: Probe)
    ensures RunsInProject(EnhancementBlocks(es, projectName, outputDirectory, probe), projectName, outputDirectory)
    ensures WritesInProject(EnhancementBlocks(es, projectName, outputDirectory, probe), projectName, outputDirectory)
    decreases |es|
  {
    if |es| > 0 {
      EnhancementBlockInProject(es[0], projectName, outputDirectory, probe);
      EnhancementBlocksInProject(es[1..], projectName, outputDirectory, probe);
      InProjectAppend(EnhancementBlock(es[0], projectName, outputDirectory, probe),
        EnhancementBlocks(es[1..], projectName, outputDirectory, probe), projectName, outputDirectory);
    }
  }

  /** The install commands of the enhancements, in the caller's order. */
  function AllEnhancementCommands(es: seq<Enhancement>, projectName: string): (r: seq<string>)
    ensures forall i | 0 <= i < |r| :: CdInto(projectName) <= r[i]
    decreases |es|
  {
    if |es| == 0 then []
    else EnhancementCommands(es[0], projectName) + AllEnhancementCommands(es[1..], projectName)
  }

  /** The enhancement part of a plan: nothing for no enhancements, else a header and the blocks. */
  function EnhancementPart(es: seq<Enhancement>, projectName: string, outputDirectory: string, probe: Probe): (r: seq<Step>)
    ensures r == [] <==> es == []
    ensures es != [] ==> r[0] == Say(ApplyingEnhancements) && |r| > |es|
  {
    if |es| == 0 then []
    else [Say(ApplyingEnhancements)] + EnhancementBlocks(es, projectName, outputDirectory, probe)
  }

  /** A lone announcement runs nothing and writes nothing. */
  lemma {:induction false} AnnouncementInProject(m: Message, projectName: string, outputDirectory: string)
    ensures RunsInProject([Say(m)], projectName, outputDirectory)
    ensures WritesInProject([Say(m)], projectName, outputDirectory)
  {
  }

  /**
   * Every command of the enhancement phase runs from the output directory
   * behind the `cd` prefix, and every file it writes has a path structurally
   * below the project folder.
   */
  lemma {:induction false} EnhancementPartInProject(es: seq<Enhancement>, projectName: string, outputDirectory: string, probe: Probe)
    ensures RunsInProject(EnhancementPart(es, projectName, outputDirectory, probe), projectName, outputDirectory)
    ensures WritesInProject(EnhancementPart(es, projectName, outputDirectory, probe), projectName, outputDirectory)
  {
    if |es| > 0 {
      EnhancementBlocksInProject(es, projectName, outputDirectory, probe);
      AnnouncementInProject(ApplyingEnhancements, projectName, outputDirectory);
      InProjectAppend([Say(ApplyingEnhancements)], EnhancementBlocks(es, projectName, outputDirectory, probe), projectName, outputDirectory);
    }
  }

  // ---------------------------------------------------------------------------
  // The whole setup

  /**
   * The plan for a template and enhancements. The standalone page returns
   * right after writing its files; every other template runs its commands and
   * then applies the enhancements.
   */
  function Setup(t: Template, es: seq<Enhancement>, projectName: string, outputDirectory: string, probe: Probe): (r: SetupPlan)
    ensures |r.steps| >= 1 && r.steps[0] == Say(SettingUp(TemplateName(t), projectName))
    ensures r.startCommand == StartCommand(t)
  {
    var intro := [Say(SettingUp(TemplateName(t), projectName))];
    if t == TailwindStandalone then
      SetupPlan(intro + StandaloneSteps(outputDirectory, projectName), StartCommand(t))
    else
      var templateSteps := RunAll(TemplateCommands(t, projectName), outputDirectory);
      var enhancementSteps := EnhancementPart(es, projectName, outputDirectory, probe);
      SetupPlan(intro + templateSteps + enhancementSteps, StartCommand(t))
  }

  /** The plan for the names the form passes on. */
  function SetupByName(template: string, enhancements: seq<string>, projectName: string, outputDirectory: string, probe: Probe): (r: SetupPlan)
    ensures |r.steps| >= 1 && r.steps[0] == Say(SettingUp(template, projectName))
  {
    var t := ParseTemplate(template);
    Setup(t, seq(|enhancements|, i requires 0 <= i < |enhancements| => ParseEnhancement(enhancements[i])),
      projectName, outputDirectory, probe)
  }
}

=== FILE: plan_facts.dfy ===
/**
 * Properties relating setup plans to one another: how enhancement lists
 * compose, what the standalone page ignores, and the order of the commands a
 * template runs.
 */
module PlanFacts {
  import opened Common
  import opened Paths
  import opened Catalog
  import opened Plan

  /** The paths a sequence of steps writes, in order. */
  function WrittenPaths(steps: seq<Step>): (r: seq<FilePath>)
    ensures |r| <= |steps|
    decreases |steps|
  {
    if |steps| == 0 then []
    else (if steps[0].Write? then [steps[0].path] else []) + WrittenPaths(steps[1..])
  }

  /** The blocks of a concatenated enhancement list are the blocks of each part, one after the other. */
  lemma {:induction false} BlocksAppend(e1: seq<Enhancement>, e2: seq<Enhancement>, projectName: string, outputDirectory: string, probe: Probe)
    ensures EnhancementBlocks(e1 + e2, projectName, outputDirectory, probe)
      == EnhancementBlocks(e1, projectName, outputDirectory, probe) + EnhancementBlocks(e2, projectName, outputDirectory, probe)
    decreases |e1|
  {
    if |e1| == 0 {
      assert e1 + e2 == e2;
    } else {
      assert (e1 + e2)[0] == e1[0];
      assert (e1 + e2)[1..] == e1[1..] + e2;
      BlocksAppend(e1[1..], e2, projectName, outputDirectory, probe);
      AppendAssoc(EnhancementBlock(e1[0], projectName, outputDirectory, probe),
        EnhancementBlocks(e1[1..], projectName, outputDirectory, probe),
        EnhancementBlocks(e2, projectName, outputDirectory, probe));
    }
  }

  /**
   * A contiguous run `e` of a selection contributes its blocks as one
   * contiguous run of the selection's blocks, in the same order.
   */
  lemma {:induction false} BlocksOfSubrun(before: seq<Enhancement>, e: seq<Enhancement>, after: seq<Enhancement>, projectName: string, outputDirectory: string, probe: Probe)
    ensures EnhancementBlocks(before + e + after, projectName, outputDirectory, probe)
      == EnhancementBlocks(before, projectName, outputDirectory, probe)
       + EnhancementBlocks(e, projectName, outputDirectory, probe)
       + EnhancementBlocks(after, projectName, outputDirectory, probe)
  {
    BlocksAppend(before + e, after, projectName, outputDirectory, probe);
    BlocksAppend(before, e, projectName, outputDirectory, probe);
  }

  /** The commands of the blocks are the enhancements' install commands, in the caller's order. */
  lemma {:induction false} BlocksCommands(es: seq<Enhancement>, projectName: string, outputDirectory: string, probe: Probe)
    ensures Commands(EnhancementBlocks(es, projectName, outputDirectory, probe)) == AllEnhancementCommands(es, projectName)
    decreases |es|
  {
    if |es| > 0 {
      var first := EnhancementBlock(es[0], projectName, outputDirectory, probe);
      var rest := EnhancementBlocks(es[1..], projectName, outputDirectory, probe);
      CommandsAppend(first, rest);
      EnhancementBlockCommands(es[0], projectName, outputDirectory, probe);
      BlocksCommands(es[1..], projectName, outputDirectory, probe);
    }
  }

  /** The steps of a setup for a template other than the standalone page, part by part. */
  lemma {:induction false} SetupParts(t: Template, es: seq<Enhancement>, projectName: string, outputDirectory: string, probe: Probe)
    requires t != TailwindStandalone
    ensures Setup(t, es, projectName, outputDirectory, probe).steps
      == [Say(SettingUp(TemplateName(t), projectName))]
       + RunAll(TemplateCommands(t, projectName), outputDirectory)
       + EnhancementPart(es, projectName, outputDirectory, probe)
  {
  }

  /** The commands of the enhancement part are the enhancements' install commands. */
  lemma {:induction false} EnhancementPartCommands(es: seq<Enhancement>, projectName: string, outputDirectory: string, probe: Probe)
    ensures Commands(EnhancementPart(es, projectName, outputDirectory, probe)) == AllEnhancementCommands(es, projectName)
  {
    if |es| > 0 {
      var header := [Say(ApplyingEnhancements)];
      NoCommands(header);
      CommandsAppend(header, EnhancementBlocks(es, projectName, outputDirectory, probe));
      BlocksCommands(es, projectName, outputDirectory, probe);
    }
  }

  /** The standalone page runs no command. */
  lemma {:induction false} StandaloneCommands(es: seq<Enhancement>, projectName: string, outputDirectory: string, probe: Probe)
    ensures Commands(Setup(TailwindStandalone, es, projectName, outputDirectory, probe).steps) == []
  {
    var intro := [Say(SettingUp(TemplateName(TailwindStandalone), projectName))];
    NoCommands(intro + StandaloneSteps(outputDirectory, projectName));
  }

  /**
   * The commands of a setup for any other template: the template's scaffold
   * and post-install commands, then every enhancement's install commands in
   * the caller's order.
   */
  lemma {:induction false} TemplateSetupCommands(t: Template, es: seq<Enhancement>, projectName: string, outputDirectory: string, probe: Probe)
    requires t != TailwindStandalone
    ensures Commands(Setup(t, es, projectName, outputDirectory, probe).steps)
      == TemplateCommands(t, projectName) + AllEnhancementCommands(es, projectName)
  {
    SetupParts(t, es, projectName, outputDirectory, probe);
    ThreePartCommands(
      [Say(SettingUp(TemplateName(t), projectName))],
      RunAll(TemplateCommands(t, projectName), outputDirectory),
      EnhancementPart(es, projectName, outputDirectory, probe));
    EnhancementPartCommands(es, projectName, outputDirectory, probe);
  }

  /** The commands of a three-part sequence whose first part runs nothing. */
  lemma {:induction false} ThreePartCommands(a: seq<Step>, b: seq<Step>, c: seq<Step>)
    requires forall i | 0 <= i < |a| :: !a[i].Run?
    ensures Commands(a + b + c) == Commands(b) + Commands(c)
  {
    NoCommands(a);
    CommandsAppend(a, b);
    CommandsAppend(a + b, c);
  }

  /** The front of a concatenation, as long as its first part, is that part. */
  lemma {:induction false} TakeFront<T>(a: seq<T>, b: seq<T>)
    ensures (a + b)[..|a|] == a
  {
  }

  /** Regrouping a five-part concatenation so that its last part stands alone. */
  lemma {:induction false} Regroup<T>(a: seq<T>, b: seq<T>, c: seq<T>, d: seq<T>, e: seq<T>)
    ensures a + b + (c + (d + e)) == (a + b + (c + d)) + e
  {
  }

  /**
   * Enhancements only ever add steps after the template's own: the plan with
   * enhancements is the plan without them followed by the enhancement part.
   */
  lemma {:induction false} EnhancementsFollowTemplate(t: Template, es: seq<Enhancement>, projectName: string, outputDirectory: string, probe: Probe)
    requires t != TailwindStandalone
    ensures Setup(t, es, projectName, outputDirectory, probe).steps
      == Setup(t, [], projectName, outputDirectory, probe).steps + EnhancementPart(es, projectName, outputDirectory, probe)
  {
    var intro := [Say(SettingUp(TemplateName(t), projectName))];
    var templateSteps := RunAll(TemplateCommands(t, projectName), outputDirectory);
    SetupParts(t, es, projectName, outputDirectory, probe);
    SetupParts(t, [], projectName, outputDirectory, probe);
    assert EnhancementPart([], projectName, outputDirectory, probe) == [];
    assert intro + templateSteps + [] == intro + templateSteps;
  }

  /**
   * Selecting further enhancements after a non-empty selection appends their
   * blocks and changes nothing before them.
   */
  lemma {:induction false} MoreEnhancementsAppendBlocks(t: Template, e1: seq<Enhancement>, e2: seq<Enhancement>, projectName: string, outputDirectory: string, probe: Probe)
    requires t != TailwindStandalone
    requires |e1| > 0
    ensures Setup(t, e1 + e2, projectName, outputDirectory, probe).steps
      == Setup(t, e1, projectName, outputDirectory, probe).steps + EnhancementBlocks(e2, projectName, outputDirectory, probe)
  {
    var intro := [Say(SettingUp(TemplateName(t), projectName))];
    var templateSteps := RunAll(TemplateCommands(t, projectName), outputDirectory);
    var header := [Say(ApplyingEnhancements)];
    var b1 := EnhancementBlocks(e1, projectName, outputDirectory, probe);
    var b2 := EnhancementBlocks(e2, projectName, outputDirectory, probe);
    SetupParts(t, e1 + e2, projectName, outputDirectory, probe);
    SetupParts(t, e1, projectName, outputDirectory, probe);
    BlocksAppend(e1, e2, projectName, outputDirectory, probe);
    assert EnhancementPart(e1 + e2, projectName, outputDirectory, probe) == header + (b1 + b2);
    assert EnhancementPart(e1, projectName, outputDirectory, probe) == header + b1;
    Regroup(intro, templateSteps, header, b1, b2);
  }

  /** The standalone page returns before the enhancements: its plan is the same for every selection. */
  lemma {:induction false} StandaloneIgnoresEnhancements(e1: seq<Enhancement>, e2: seq<Enhancement>, projectName: string, outputDirectory: string, p1: Probe, p2: Probe)
    ensures Setup(TailwindStandalone, e1, projectName, outputDirectory, p1)
      == Setup(TailwindStandalone, e2, projectName, outputDirectory, p2)
  {
  }

  /**
   * The standalone page runs no command and writes exactly two files below
   * the project folder's path: the page, then its script.
   */
  lemma {:induction false} StandaloneWrites(es: seq<Enhancement>, projectName: string, outputDirectory: string, probe: Probe)
    ensures var steps := Setup(TailwindStandalone, es, projectName, outputDirectory, probe).steps;
      && Commands(steps) == []
      && WrittenPaths(steps) == [
           FilePath(outputDirectory, [projectName, "index.html"]),
           FilePath(outputDirectory, [projectName, "js", "main.js"])]
  {
    StandaloneCommands(es, projectName, outputDirectory, probe);
    var steps := Setup(TailwindStandalone, es, projectName, outputDirectory, probe).steps;
    assert steps[1..] == StandaloneSteps(outputDirectory, projectName);
    StandaloneStepsWrite(outputDirectory, projectName);
  }

  /** The standalone steps write the page, then its script. */
  lemma {:induction false} StandaloneStepsWrite(outputDirectory: string, projectName: string)
    ensures WrittenPaths(StandaloneSteps(outputDirectory, projectName)) == [
      FilePath(outputDirectory, [projectName, "index.html"]),
      FilePath(outputDirectory, [projectName, "js", "main.js"])]
  {
    var project := ProjectFolder(outputDirectory, projectName);
    var page := Combine(project, ["index.html"]);
    var script := Combine(project, ["js", "main.js"]);
    assert page == FilePath(outputDirectory, [projectName, "index.html"]);
    assert script == FilePath(outputDirectory, [projectName, "js", "main.js"]);
    var s := StandaloneSteps(outputDirectory, projectName);
    assert WrittenPaths(s[7..]) == [];
    assert WrittenPaths(s[6..]) == [];
    assert WrittenPaths(s[5..]) == [script];
    assert WrittenPaths(s[4..]) == [script];
    assert WrittenPaths(s[3..]) == [page, script];
    assert WrittenPaths(s[2..]) == [page, script];
    assert WrittenPaths(s[1..]) == [page, script];
  }

  /** Every command step of `steps` runs from `directory`. */
  predicate RunsFrom(steps: seq<Step>, directory: string) {
    forall i | 0 <= i < |steps| && steps[i].Run? :: steps[i].workingDirectory == directory
  }

  /** Commands of a concatenation run from where the commands of its parts run. */
  lemma {:induction false} RunsFromAppend(a: seq<Step>, b: seq<Step>, directory: string)
    requires RunsFrom(a, directory) && RunsFrom(b, directory)
    ensures RunsFrom(a + b, directory)
  {
    forall i | |a| <= i < |a + b|
      ensures (a + b)[i] == b[i - |a|]
    {
    }
  }

  /** Every command of a setup runs from the chosen output directory. */
  lemma {:induction false} CommandsRunFromOutputDirectory(t: Template, es: seq<Enhancement>, projectName: string, outputDirectory: string, probe: Probe)
    ensures var steps := Setup(t, es, projectName, outputDirectory, probe).steps;
      forall i | 0 <= i < |steps| && steps[i].Run? :: steps[i].workingDirectory == outputDirectory
  {
    var steps := Setup(t, es, projectName, outputDirectory, probe).steps;
    if t != TailwindStandalone {
      var intro := [Say(SettingUp(TemplateName(t), projectName))];
      var runs := RunAll(TemplateCommands(t, projectName), outputDirectory);
      var part := EnhancementPart(es, projectName, outputDirectory, probe);
      SetupParts(t, es, projectName, outputDirectory, probe);
      EnhancementPartInProject(es, projectName, outputDirectory, probe);
      RunsFromAppend(intro, runs, outputDirectory);
      RunsFromAppend(intro + runs, part, outputDirectory);
    }
  }

  /**
   * Every listed template other than the standalone page has a scaffold
   * command that names the project, and it is the first command of the plan,
   * ahead of the post-install commands in their listed order.
   */
  lemma {:induction false} ScaffoldComesFirst(t: Template, es: seq<Enhancement>, projectName: string, outputDirectory: string, probe: Probe)
    requires !t.UnknownTemplate? && t != TailwindStandalone
    ensures var scaffold := ScaffoldCommand(t, projectName);
      var commands := Commands(Setup(t, es, projectName, outputDirectory, probe).steps);
      && scaffold != ""
      && Contains(scaffold, projectName)
      && |commands| > |PostInstallCommands(t, projectName)|
      && commands[0] == scaffold
      && commands[1..1 + |PostInstallCommands(t, projectName)|] == PostInstallCommands(t, projectName)
  {
    ScaffoldNamesProject(t, projectName);
    TemplateSetupCommands(t, es, projectName, outputDirectory, probe);
    var post := PostInstallCommands(t, projectName);
    var commands := Commands(Setup(t, es, projectName, outputDirectory, probe).steps);
    assert commands == [ScaffoldCommand(t, projectName)] + post + AllEnhancementCommands(es, projectName);
    assert commands[1..1 + |post|] == post;
  }

  /** The scaffold command of a listed template is non-empty and mentions the project name. */
  lemma {:induction false} ScaffoldNamesProject(t: Template, projectName: string)
    requires !t.UnknownTemplate? && t != TailwindStandalone
    ensures ScaffoldCommand(t, projectName) != ""
    ensures Contains(ScaffoldCommand(t, projectName), projectName)
  {
    match t
    case React => ContainsEnd("npx --yes create-react-app ", projectName);
    case ReactVite => ContainsMiddle("npm create vite@latest ", projectName, " -y -- --template react");
    case ViteVanilla => ContainsMiddle("npm create vite@latest ", projectName, " -y -- --template vanilla");
    case Svelte => ContainsEnd("npx --yes degit sveltejs/template ", projectName);
    case SvelteKit => ContainsMiddle("npm create svelte@latest ", projectName, " -y");
    case Vue => ContainsMiddle("npm create vue@latest ", projectName, " -y");
    case NextJs => ContainsEnd("npx --yes create-next-app@latest ", projectName);
    case ThreeJs => ContainsMiddle("npm create vite@latest ", projectName, " -y -- --template vanilla");
    case Express => ContainsEnd("npx --yes express-generator ", projectName);
    case Angular => ContainsMiddle("npx --yes @angular/cli new ", projectName, " --defaults");
  }

  /** A template name outside the list scaffolds nothing, but its enhancements still run. */
  lemma {:induction false} UnknownTemplateStillEnhances(name: string, es: seq<Enhancement>, projectName: string, outputDirectory: string, probe: Probe)
    requires name !in TemplateNames
    ensures var r := Setup(UnknownTemplate(name), es, projectName, outputDirectory, probe);
      && Commands(r.steps) == AllEnhancementCommands(es, projectName)
      && r.startCommand == DefaultStartCommand
  {
    TemplateSetupCommands(UnknownTemplate(name), es, projectName, outputDirectory, probe);
  }

  /** Three.js installs the dependencies before installing three itself. */
  lemma {:induction false} ThreeJsInstallOrder(es: seq<Enhancement>, projectName: string, outputDirectory: string, probe: Probe)
    ensures var commands := Commands(Setup(ThreeJs, es, projectName, outputDirectory, probe).steps);
      && |commands| >= 3
      && commands[..3] == [
           "npm create vite@latest " + projectName + " -y -- --template vanilla",
           CdInto(projectName) + "npm install",
           CdInto(projectName) + "npm install three"]
  {
    TemplateSetupCommands(ThreeJs, es, projectName, outputDirectory, probe);
    ThreeJsCommands(projectName);
    TakeFront(TemplateCommands(ThreeJs, projectName), AllEnhancementCommands(es, projectName));
  }

  /** The Three.js template's own commands. */
  lemma {:induction false} ThreeJsCommands(projectName: string)
    ensures TemplateCommands(ThreeJs, projectName) == [
      "npm create vite@latest " + projectName + " -y -- --template vanilla",
      CdInto(projectName) + "npm install",
      CdInto(projectName) + "npm install three"]
  {
  }

  /**
   * Vite (Vanilla) with TypeScript: scaffold, install, then the TypeScript
   * install, and a `tsconfig.json` written into the project.
   */
  lemma {:induction false} ViteWithTypeScript(projectName: string, outputDirectory: string, probe: Probe)
    ensures var steps := Setup(ViteVanilla, [TypeScript], projectName, outputDirectory, probe).steps;
      && Commands(steps) == [
           "npm create vite@latest " + projectName + " -y -- --template vanilla",
           CdInto(projectName) + "npm install",
           CdInto(projectName) + "npm install -D typescript @types/node --yes"]
      && Write(FilePath(outputDirectory, [projectName, "tsconfig.json"]), TypeScriptConfig) in steps
  {
    ViteTypeScriptCommands(projectName, outputDirectory, probe);
    TypeScriptConfigWritten(projectName, outputDirectory, probe);
    SetupParts(ViteVanilla, [TypeScript], projectName, outputDirectory, probe);
  }

  /** The command half of the Vite with TypeScript setup. */
  lemma {:induction false} ViteTypeScriptCommands(projectName: string, outputDirectory: string, probe: Probe)
    ensures Commands(Setup(ViteVanilla, [TypeScript], projectName, outputDirectory, probe).steps) == [
      "npm create vite@latest " + projectName + " -y -- --template vanilla",
      CdInto(projectName) + "npm install",
      CdInto(projectName) + "npm install -D typescript @types/node --yes"]
  {
    TemplateSetupCommands(ViteVanilla, [TypeScript], projectName, outputDirectory, probe);
    ViteVanillaCommands(projectName);
    TypeScriptCommands(projectName);
  }

  /** The Vite (Vanilla) template's own commands. */
  lemma {:induction false} ViteVanillaCommands(projectName: string)
    ensures TemplateCommands(ViteVanilla, projectName) == [
      "npm create vite@latest " + projectName + " -y -- --template vanilla",
      CdInto(projectName) + "npm install"]
  {
  }

  /** The TypeScript enhancement's commands, alone in a selection. */
  lemma {:induction false} TypeScriptCommands(projectName: string)
    ensures AllEnhancementCommands([TypeScript], projectName)
      == [CdInto(projectName) + "npm install -D typescript @types/node --yes"]
  {
    assert [TypeScript][1..] == [];
    assert AllEnhancementCommands([TypeScript], projectName) == EnhancementCommands(TypeScript, projectName);
  }

  /** The TypeScript enhancement writes its compiler configuration to `tsconfig.json` below the project folder's path. */
  lemma {:induction false} TypeScriptConfigWritten(projectName: string, outputDirectory: string, probe: Probe)
    ensures Write(FilePath(outputDirectory, [projectName, "tsconfig.json"]), TypeScriptConfig)
      in EnhancementPart([TypeScript], projectName, outputDirectory, probe)
  {
    var project := ProjectFolder(outputDirectory, projectName);
    var write := Write(Combine(project, ["tsconfig.json"]), TypeScriptConfig);
    assert Combine(project, ["tsconfig.json"]) == FilePath(outputDirectory, [projectName, "tsconfig.json"]);
    var block := EnhancementBlock(TypeScript, projectName, outputDirectory, probe);
    assert write in EnhancementFiles(TypeScript, project, probe);
    assert write in block;
    assert EnhancementBlocks([TypeScript], projectName, outputDirectory, probe) == block + [];
  }

  /**
   * The Tailwind CSS block writes the directives exactly when a `src` folder
   * exists, and then to the chosen stylesheet.
   */
  lemma {:induction false} TailwindDirectivesTarget(projectName: string, outputDirectory: string, probe: Probe)
    ensures var block := EnhancementBlock(TailwindCss, projectName, outputDirectory, probe);
      var target := StylesheetTarget(probe, ProjectFolder(outputDirectory, projectName));
      && (probe.srcDirectory <==> exists i | 0 <= i < |block| :: block[i].Write? && block[i].content == TailwindDirectives)
      && (forall i | 0 <= i < |block| && block[i].Write? && block[i].content == TailwindDirectives ::
            target == Some(block[i].path))
  {
    var block := EnhancementBlock(TailwindCss, projectName, outputDirectory, probe);
    var target := StylesheetTarget(probe, ProjectFolder(outputDirectory, projectName));
    assert |block| == 4 + (if probe.srcDirectory then 2 else 0);
    if probe.srcDirectory {
      assert block[4] == Write(target.value, TailwindDirectives);
    }
  }
}

=== FILE: runner.dfy ===
/**
 * Carrying out a setup plan, and what the output pane shows while it runs.
 *
 * Each step has an outcome chosen by the world: a command completes with an
 * exit code, runs past the five-minute limit, or cannot be started; a file
 * step succeeds or throws. The outcomes are an input aligned with the steps.
 * A nonzero exit code is reported and the setup goes on; a timeout or an
 * exception ends the setup at that step, and the create button reports the
 * error instead of the completion lines.
 */
module Runner {
  import opened Common
  import opened Catalog
  import opened Plan
  import opened Files

  /** The message of the exception a timed-out command raises. */
  const TimeoutMessage: string := "Command execution timed out."

  /** What happened when a step was carried out. */
  datatype Outcome =
    | Completed(exitCode: int)
    | TimedOut
    | Threw(reason: string)

  /** A line of the output pane (the command's own output lines are not modelled). */
  datatype Event =
    | StartingSetup
    | Said(message: Message)
    | Executing(command: string)
    | CompletedOk
    | CompletedWithCode(code: int)
    | TimeoutNotice
    | CommandError(reason: string)
    | SetupComplete(projectName: string, startCommand: string)
    | SetupError(reason: string)

  /** The steps carried out, the lines they showed, and the error that ended the run, if any. */
  datatype Report = Report(executed: seq<Step>, events: seq<Event>, fault: Option<string>)

  /**
   * Whether a step's outcome ends the setup: a message never does; a command
   * does when it times out or cannot be run, whatever its exit code otherwise;
   * a folder or file step does when it throws.
   */
  function Fails(step: Step, o: Outcome): (b: bool)
    ensures o.Completed? ==> !b
    ensures step.Say? ==> !b
    ensures o.Threw? ==> (b <==> !step.Say?)
    ensures o.TimedOut? ==> (b <==> step.Run?)
  {
    match step
    case Say(_) => false
    case Run(_, _) => !o.Completed?
    case MakeDirectory(_) => o.Threw?
    case Write(_, _) => o.Threw?
  }

  /** The message of the exception that reaches the create button. */
  function FaultReason(o: Outcome): (r: string)
    ensures o.TimedOut? ==> r == TimeoutMessage
    ensures o.Threw? ==> r == o.reason
  {
    match o
    case Threw(reason) => reason
    case _ => TimeoutMessage
  }

  /** The lines a command's completion shows. */
  function CommandEvents(command: string, o: Outcome): (r: seq<Event>)
    ensures |r| == (if o.TimedOut? then 3 else 2) && r[0] == Executing(command)
    ensures r[1] == CompletedOk <==> o == Completed(0)
    ensures r[1].CompletedWithCode? <==> o.Completed? && o.exitCode != 0
    ensures o.Completed? && o.exitCode != 0 ==> r[1] == CompletedWithCode(o.exitCode)
    ensures !o.Completed? <==> CommandError(FaultReason(o)) == r[|r| - 1]
    ensures o.TimedOut? ==> r[1] == TimeoutNotice
  {
    [Executing(command)] +
      match o
      case Completed(code) => if code == 0 then [CompletedOk] else [CompletedWithCode(code)]
      case TimedOut => [TimeoutNotice, CommandError(TimeoutMessage)]
      case Threw(reason) => [CommandError(reason)]
  }

  /** The lines one step shows: a message, or a command's lines; file steps show nothing themselves. */
  function StepEvents(step: Step, o: Outcome): seq<Event> {
    match step
    case Say(m) => [Said(m)]
    case Run(command, _) => CommandEvents(command, o)
    case _ => []
  }

  /**
   * Carrying out the steps in order, stopping at the first step whose
   * outcome ends the setup. `outcomes[i]` is the outcome of `steps[i]`.
   */
  function Execute(steps: seq<Step>, outcomes: seq<Outcome>): (r: Report)
    requires |outcomes| == |steps|
    ensures r.executed <= steps
    ensures r.fault.Some? ==> |r.executed| >= 1
    decreases |steps|
  {
    if |steps| == 0 then Report([], [], None)
    else
      var events := StepEvents(steps[0], outcomes[0]);
      if Fails(steps[0], outcomes[0]) then Report([steps[0]], events, Some(FaultReason(outcomes[0])))
      else
        var rest := Execute(steps[1..], outcomes[1..]);
        Report([steps[0]] + rest.executed, events + rest.events, rest.fault)
  }

  /**
   * The run stops exactly at the first failing step: every step before it was
   * carried out and did not fail, the error is that step's, and without a
   * failing step every step is carried out.
   */
  lemma {:induction false} ExecuteStopsAtFirstFailure(steps: seq<Step>, outcomes: seq<Outcome>)
    requires |outcomes| == |steps|
    ensures var r := Execute(steps, outcomes);
      && (r.fault.None? <==> forall i | 0 <= i < |steps| :: !Fails(steps[i], outcomes[i]))
      && (r.fault.None? ==> r.executed == steps)
      && (r.fault.Some? ==>
            var k := |r.executed| - 1;
            && Fails(steps[k], outcomes[k])
            && r.fault == Some(FaultReason(outcomes[k]))
            && forall i | 0 <= i < k :: !Fails(steps[i], outcomes[i]))
    decreases |steps|
  {
    if |steps| > 0 {
      ExecuteCons(steps, outcomes);
    }
    if |steps| > 0 && !Fails(steps[0], outcomes[0]) {
      var rest := Execute(steps[1..], outcomes[1..]);
      ExecuteStopsAtFirstFailure(steps[1..], outcomes[1..]);
      if rest.fault.None? {
        assert [steps[0]] + steps[1..] == steps;
        forall i | 1 <= i < |steps|
          ensures !Fails(steps[i], outcomes[i])
        {
          assert steps[i] == steps[1..][i - 1];
        }
      } else {
        var k := |rest.executed| - 1;
        assert steps[k + 1] == steps[1..][k] && outcomes[k + 1] == outcomes[1..][k];
        forall i | 1 <= i < k + 1
          ensures !Fails(steps[i], outcomes[i])
        {
          assert steps[i] == steps[1..][i - 1];
        }
      }
    }
  }

  /** Carrying out two plans one after the other: the second starts only if the first ran clean. */
  function Then(first: Report, second: Report): Report {
    Report(first.executed + second.executed, first.events + second.events, second.fault)
  }

  /**
   * Running a concatenation is running its first part and, when that part
   * ran clean, its second part after it.
   */
  lemma {:induction false} ExecuteAppend(s1: seq<Step>, o1: seq<Outcome>, s2: seq<Step>, o2: seq<Outcome>)
    requires |o1| == |s1| && |o2| == |s2|
    ensures var r1 := Execute(s1, o1);
      Execute(s1 + s2, o1 + o2) == if r1.fault.Some? then r1 else Then(r1, Execute(s2, o2))
    decreases |s1|
  {
    if |s1| == 0 {
      assert s1 + s2 == s2 && o1 + o2 == o2;
    } else {
      var s, o := s1 + s2, o1 + o2;
      assert s[0] == s1[0] && o[0] == o1[0];
      assert s[1..] == s1[1..] + s2 && o[1..] == o1[1..] + o2;
      ExecuteCons(s, o);
      ExecuteCons(s1, o1);
      if !Fails(s1[0], o1[0]) {
        var events := StepEvents(s1[0], o1[0]);
        var tail := Execute(s1[1..], o1[1..]);
        var r2 := Execute(s2, o2);
        ExecuteAppend(s1[1..], o1[1..], s2, o2);
        if tail.fault.None? {
          AppendAssoc([s1[0]], tail.executed, r2.executed);
          AppendAssoc(events, tail.events, r2.events);
        }
      }
    }
  }

  /** One step of `Execute`: the first step, and the rest only when the first did not fail. */
  lemma {:induction false} ExecuteCons(steps: seq<Step>, outcomes: seq<Outcome>)
    requires |outcomes| == |steps| > 0
    ensures Execute(steps, outcomes) ==
      if Fails(steps[0], outcomes[0]) then
        Report([steps[0]], StepEvents(steps[0], outcomes[0]), Some(FaultReason(outcomes[0])))
      else
        Then(Report([steps[0]], StepEvents(steps[0], outcomes[0]), None), Execute(steps[1..], outcomes[1..]))
  {
  }

  /**
   * A command that completes never ends the setup, whatever its exit code:
   * when every command completes and no file step throws, all steps are
   * carried out.
   */
  lemma {:induction false} ExitCodesNeverAbort(steps: seq<Step>, outcomes: seq<Outcome>)
    requires |outcomes| == |steps|
    requires forall i | 0 <= i < |steps| :: outcomes[i].Completed?
    ensures Execute(steps, outcomes).executed == steps
    ensures Execute(steps, outcomes).fault == None
  {
    ExecuteStopsAtFirstFailure(steps, outcomes);
  }

  /** The commands shown as executing, in order. */
  function ExecutedCommands(events: seq<Event>): (r: seq<string>)
    ensures |r| <= |events|
    decreases |events|
  {
    if |events| == 0 then []
    else (if events[0].Executing? then [events[0].command] else []) + ExecutedCommands(events[1..])
  }

  /** The commands of two event sequences one after the other. */
  lemma {:induction false} ExecutedCommandsAppend(a: seq<Event>, b: seq<Event>)
    ensures ExecutedCommands(a + b) == ExecutedCommands(a) + ExecutedCommands(b)
    decreases |a|
  {
    if |a| > 0 {
      assert (a + b)[1..] == a[1..] + b;
      ExecutedCommandsAppend(a[1..], b);
    } else {
      assert a + b == b;
    }
  }

  /** A step shows an executing line exactly for its own command. */
  lemma {:induction false} StepEventsCommands(step: Step, o: Outcome)
    ensures ExecutedCommands(StepEvents(step, o)) == Commands([step])
  {
    var e := StepEvents(step, o);
    if step.Run? {
      assert e == [Executing(step.command)] + e[1..];
      assert forall i | 0 <= i < |e[1..]| :: !e[1..][i].Executing?;
      NoExecuting(e[1..]);
      assert Commands([step]) == [step.command] + Commands([step][1..]);
    }
  }

  /** Events with no executing line show no command. */
  lemma {:induction false} NoExecuting(events: seq<Event>)
    requires forall i | 0 <= i < |events| :: !events[i].Executing?
    ensures ExecutedCommands(events) == []
    decreases |events|
  {
    if |events| > 0 {
      NoExecuting(events[1..]);
    }
  }

  /** The output pane announces exactly the commands of the steps carried out, in order. */
  lemma {:induction false} ShownCommandsAreExecuted(steps: seq<Step>, outcomes: seq<Outcome>)
    requires |outcomes| == |steps|
    ensures var r := Execute(steps, outcomes);
      ExecutedCommands(r.events) == Commands(r.executed)
    decreases |steps|
  {
    if |steps| > 0 {
      var events := StepEvents(steps[0], outcomes[0]);
      StepEventsCommands(steps[0], outcomes[0]);
      if !Fails(steps[0], outcomes[0]) {
        var rest := Execute(steps[1..], outcomes[1..]);
        ShownCommandsAreExecuted(steps[1..], outcomes[1..]);
        ExecutedCommandsAppend(events, rest.events);
        CommandsAppend([steps[0]], rest.executed);
      }
    }
  }

  /**
   * What is on disk after a run: the effect of the steps carried out, except
   * the step the run stopped on, which threw or timed out before it changed
   * anything.
   */
  function DiskAfter(fs: FileSystem, steps: seq<Step>, outcomes: seq<Outcome>): (r: FileSystem)
    requires |outcomes| == |steps|
    ensures (forall i | 0 <= i < |steps| :: !Fails(steps[i], outcomes[i])) ==> r == Apply(fs, steps)
  {
    var run := Execute(steps, outcomes);
    ExecuteStopsAtFirstFailure(steps, outcomes);
    Apply(fs, if run.fault.Some? then run.executed[..|run.executed| - 1] else run.executed)
  }

  /**
   * When step k is the first to fail, the disk holds the effect of the steps
   * before it and nothing of step k: a write that throws, for instance for a
   * missing project folder, creates no file. A failing command changes the
   * modelled disk no more than a clean one, so there the disk is also the
   * effect of every step carried out.
   */
  lemma {:induction false} DiskAfterFailure(fs: FileSystem, steps: seq<Step>, outcomes: seq<Outcome>, k: nat)
    requires |outcomes| == |steps| && k < |steps|
    requires Fails(steps[k], outcomes[k])
    requires forall i | 0 <= i < k :: !Fails(steps[i], outcomes[i])
    ensures DiskAfter(fs, steps, outcomes) == Apply(fs, steps[..k])
    ensures steps[k].Run? ==> DiskAfter(fs, steps, outcomes) == Apply(fs, Execute(steps, outcomes).executed)
  {
    var run := Execute(steps, outcomes);
    ExecuteStopsAtFirstFailure(steps, outcomes);
    assert |run.executed| - 1 == k;
    assert run.executed == steps[..k] + [steps[k]];
    assert run.executed[..k] == steps[..k];
    if steps[k].Run? {
      ApplyAppend(fs, steps[..k], [steps[k]]);
    }
  }

  /**
   * The whole run behind the create button: the starting line, the setup's
   * steps, then either the completion lines with the start command or the
   * error that ended the setup.
   */
  function Session(plan: SetupPlan, projectName: string, outcomes: seq<Outcome>): (r: seq<Event>)
    requires |outcomes| == |plan.steps|
    ensures |r| >= 2 && r[0] == StartingSetup
  {
    var report := Execute(plan.steps, outcomes);
    [StartingSetup] + report.events
      + match report.fault
        case None => [SetupComplete(projectName, plan.startCommand)]
        case Some(reason) => [SetupError(reason)]
  }

  /** The fault an execution stops on is the reason of the first failing step. */
  lemma {:induction false} FirstFailureFault(steps: seq<Step>, outcomes: seq<Outcome>, k: nat)
    requires |outcomes| == |steps| && k < |steps|
    requires Fails(steps[k], outcomes[k])
    requires forall i | 0 <= i < k :: !Fails(steps[i], outcomes[i])
    ensures Execute(steps, outcomes).fault == Some(FaultReason(outcomes[k]))
  {
    var report := Execute(steps, outcomes);
    ExecuteStopsAtFirstFailure(steps, outcomes);
    assert report.fault.Some?;
    var j := |report.executed| - 1;
    assert j == k;
  }

  /** The last line of a session follows from whether the execution stopped on a fault. */
  lemma {:induction false} SessionLast(plan: SetupPlan, projectName: string, outcomes: seq<Outcome>)
    requires |outcomes| == |plan.steps|
    ensures var r := Session(plan, projectName, outcomes);
      var fault := Execute(plan.steps, outcomes).fault;
      && (fault.None? ==> r[|r| - 1] == SetupComplete(projectName, plan.startCommand))
      && (fault.Some? ==> r[|r| - 1] == SetupError(fault.value))
  {
  }

  /**
   * The session ends with the completion lines exactly when no step fails,
   * and otherwise with the error of the first failing step.
   */
  lemma {:induction false} SessionEnding(plan: SetupPlan, projectName: string, outcomes: seq<Outcome>)
    requires |outcomes| == |plan.steps|
    ensures var r := Session(plan, projectName, outcomes);
      && ((r[|r| - 1] == SetupComplete(projectName, plan.startCommand))
            <==> forall i | 0 <= i < |plan.steps| :: !Fails(plan.steps[i], outcomes[i]))
      && (forall k | 0 <= k < |plan.steps| && Fails(plan.steps[k], outcomes[k])
            && (forall i | 0 <= i < k :: !Fails(plan.steps[i], outcomes[i])) ::
            r[|r| - 1] == SetupError(FaultReason(outcomes[k])))
  {
    ExecuteStopsAtFirstFailure(plan.steps, outcomes);
    SessionLast(plan, projectName, outcomes);
    forall k | 0 <= k < |plan.steps| && Fails(plan.steps[k], outcomes[k])
        && (forall i | 0 <= i < k :: !Fails(plan.steps[i], outcomes[i]))
      ensures Execute(plan.steps, outcomes).fault == Some(FaultReason(outcomes[k]))
    {
      FirstFailureFault(plan.steps, outcomes, k);
    }
  }

  /**
   * A scaffold that times out ends the setup right there: nothing after it
   * runs, in particular no enhancement, and the pane shows the timeout.
   */
  lemma {:induction false} ScaffoldTimeoutStopsSetup(t: Template, es: seq<Enhancement>, projectName: string, outputDirectory: string, probe: Probe, outcomes: seq<Outcome>)
    requires t != TailwindStandalone
    requires ScaffoldCommand(t, projectName) != ""
    requires |outcomes| == |Setup(t, es, projectName, outputDirectory, probe).steps|
    requires outcomes[1] == TimedOut
    ensures var steps := Setup(t, es, projectName, outputDirectory, probe).steps;
      var r := Execute(steps, outcomes);
      && r.executed == steps[..2]
      && r.fault == Some(TimeoutMessage)
      && r.events == [
           Said(SettingUp(TemplateName(t), projectName)),
           Executing(ScaffoldCommand(t, projectName)),
           TimeoutNotice,
           CommandError(TimeoutMessage)]
  {
    var steps := Setup(t, es, projectName, outputDirectory, probe).steps;
    var runs := RunAll(TemplateCommands(t, projectName), outputDirectory);
    assert steps == [Say(SettingUp(TemplateName(t), projectName))] + runs
      + EnhancementPart(es, projectName, outputDirectory, probe);
    assert steps[1] == runs[0] == Run(ScaffoldCommand(t, projectName), outputDirectory);
    assert steps[1..][0] == steps[1];
    assert steps[..2] == [steps[0], steps[1]];
  }
}
